=== FILE: README.md ===
# Reddit scraper dashboard and exporters: a Dafny model

This project models three parts of a Reddit scraping toolkit:

- **The scrape-job supervisor of the dashboard** (`dashboard/app.py`). It builds the scraper's command line from the "Start New Scrape" form and cuts the child's output into lines the way `readline` does. It folds every line into four live counters (posts, comments, images, videos) using the regular expressions the handler applies, tracks a progress-bar position and a posts-per-second rate, and keeps a 15-line output panel. When the job ends it classifies the exit code and shows the last 30 lines on failure. It also covers the target-name rewrite of the Parquet export button.
- **The S3 side of the cloud exporter** (`export/cloud.py`). This covers object keys and their public URLs, the keys and result map of a directory upload, the per-subreddit folder layout, and the 50-entry listing cap.
- **The metadata shaping of the subreddit statistics fetcher** (`analytics/subreddit_stats.py`). This covers `dict.get` with and without defaults, including the absent-versus-null distinction, the query-string stripping of asset URLs, the non-200 paths of each request and the exception paths kept in the model (the ones not kept are listed under "Left out"), and the counts of the merged statistics.

Modules:

| file | module | contents |
|---|---|---|
| `wrappers.dfy` | `Wrappers` | `Option` |
| `text.dfy` | `Text` | characters and strings: ASCII `\d`/`\s`, `in` on strings, `str(n)`, `replace`, `split(sep)[0]` |
| `patterns.dfy` | `Patterns` | five of the `re.search` patterns (the progress ratio, `Saved`, `Comments`, `Images`, `Videos`): a declarative match predicate for each, plus the leftmost scan, proved to agree; the `Found (\d+) posts` pattern is not modelled, since its branch touches no counter |
| `counter.dfy` | `Counter` | one counter as a fold of per-line "overwrite, then add" effects, with its closed form |
| `telemetry.dfy` | `Telemetry` | the per-line update `Step` and its fold over a run |
| `supervisor.dfy` | `Supervisor` | command, line splitting, tails, rate, progress, exit outcome, the streaming loop |
| `parquet.dfy` | `ParquetExport` | the folder-to-target-name rewrite, as written and corrected |
| `cloud.dfy` | `Cloud` | S3 keys, URLs, directory upload, listing |
| `stats.dfy` | `SubredditStats` | the four metadata requests and their merge |
| `scenarios.dfy` | `Scenarios` | worked lines and runs of the fold on concrete scraper output |

How the code behaves at three places where a reader might expect otherwise:

- **Several counters per line.** The checks at `dashboard/app.py:398-458` are independent `if`s, not an `elif` chain, so one line can update several counters. `Step` applies all of them in the code's order.
- **Increments after an absolute count.** No flag stops the "Fetching comments for:" increments after an absolute `Comments:` value (`dashboard/app.py:423-436`): every fetching line adds one, before or after an absolute count. `Scenarios.IncrementAfterAbsolute` shows `Comments: 5` followed by one fetching line ending at 6.
- **The "Found N posts" branch.** At `dashboard/app.py:461-467` it opens a `try:` with no `except`, which Python rejects as a syntax error. The model gives that branch the effect its body evidently intends for the counters, which is none: the branch only writes status text.

## Model

| member | source | states |
|---|---|---|
| Text.NatToString | dashboard/app.py:332 | `str(limit)` is a non-empty digit string with no leading zero whose decimal value is the limit |
| Text.ReplaceChar | export/cloud.py:105 | `replace` of one character keeps the length and replaces exactly the matching positions |
| Text.BeforeFirst | analytics/subreddit_stats.py:41 | `split(sep)[0]` is the longest prefix without the separator, and the separator follows it whenever the prefix is shorter than the input |
| Text.RemoveAll | dashboard/app.py:743 | `str.replace(pat, '')` never lengthens the string, returns a string without the pattern unchanged, and removes at least one whole occurrence from a string that contains it |
| Patterns.SkipSpaces | dashboard/app.py:426 | `\s*` consumes exactly the maximal run of whitespace |
| Patterns.SkipDigits | dashboard/app.py:402 | `\d+` (greedy) consumes exactly the maximal digit run |
| Patterns.SearchTriggerFrom | dashboard/app.py:426 | the scan from position i finds a match at the first position where the pattern matches, none before it, and reports none only when no later position matches |
| Patterns.TriggerValue | dashboard/app.py:415-453 | `re.search(trigger + r'\s*(\d+)')` succeeds exactly when some position matches the pattern |
| Patterns.TriggerValueIsLeftmost | dashboard/app.py:426 | the captured number is the one at the leftmost match |
| Patterns.TriggerNeedsLiteral | dashboard/app.py:423-426 | a regex match implies that the code's `trigger in line` pre-test holds |
| Patterns.TriggerNeedsDigit | dashboard/app.py:426 | a match needs at least one digit in the line |
| Patterns.SearchRatioFrom | dashboard/app.py:402 | the scan for `(\d+)\s*/\s*(\d+)` returns the leftmost match at or after i, or none when no match exists |
| Patterns.RatioValues | dashboard/app.py:402-405 | the ratio search succeeds exactly when some position matches |
| Patterns.RatioValuesIsLeftmost | dashboard/app.py:402-405 | the (done, total) pair is read from the leftmost match |
| Patterns.RatioHasSlash | dashboard/app.py:398-402 | a ratio match implies the code's `"/" in line` pre-test |
| Patterns.RatioStartsOnDigit | dashboard/app.py:402 | a ratio match starts on a digit |
| Counter.LastReset | dashboard/app.py:428 | the last overwrite is the value of some overwriting line; when there is none, no line overwrites |
| Counter.ReplayAppend | dashboard/app.py:389-458 | folding two chunks of lines one after the other equals folding them joined |
| Counter.Apply | dashboard/app.py:404-456 | one line's effect on one counter: overwrite if the line reports a value, then add; what a run of them does is stated by Counter.ReplayClosedForm |
| Counter.Replay | dashboard/app.py:389-458 | the counter after a run of lines' effects, first to last; its closed form is Counter.ReplayClosedForm |
| Counter.ReplayClosedForm | dashboard/app.py:404-435 | a counter ends at its last overwrite (its start value when nothing overwrote it) plus everything added from that overwrite on |
| Counter.NoResetGrows | dashboard/app.py:417-435 | without overwrites, a counter never decreases |
| Counter.OverwritesOnly | dashboard/app.py:439-456 | a counter that is only overwritten ends at its last overwrite |
| Counter.LastResetWins | dashboard/app.py:404-456 | when the last overwriting line is known, the counter ends at its value plus everything added from that line on |
| Telemetry.ProgressOf | dashboard/app.py:398-404 | a line reports progress exactly when it contains "Progress:" and the ratio pattern matches; the "/" pre-test excludes nothing more |
| Telemetry.SavedOf | dashboard/app.py:412-417 | a line adds saved posts exactly when it contains "posts" and `Saved (\d+)` matches |
| Telemetry.SavedNeedsWord | dashboard/app.py:412-415 | a `Saved (\d+)` match implies the `"Saved" in line` pre-test |
| Telemetry.AbsoluteOf | dashboard/app.py:423-428 | an absolute count is read exactly when its pattern matches somewhere in the line |
| Telemetry.AbsoluteAtStart | dashboard/app.py:423-428 | a trigger matched at the start of the line reports the number it captures |
| Telemetry.Step | dashboard/app.py:398-467 | the per-line update of the four counters; its meaning, four independent overwrite-then-add effects in the code's order, is stated by Telemetry.StepIsEffects |
| Telemetry.Fold | dashboard/app.py:389-458 | the counters after every line read so far, in arrival order; Telemetry.FoldIsEffects and Telemetry.FoldAppend state what it computes |
| Telemetry.StepIsEffects | dashboard/app.py:398-458 | one line's update acts on each counter separately; no counter's value influences another |
| Telemetry.FoldIsEffects | dashboard/app.py:389-458 | the fold over a run is, counter by counter, the fold of that counter's per-line effects |
| Telemetry.FoldAppend | dashboard/app.py:389-458 | folding a run in two chunks equals folding it whole |
| Telemetry.FoldSnoc | dashboard/app.py:389-398 | reading one more line is applying one more `Step` |
| Telemetry.FinalMediaCounts | dashboard/app.py:439-456 | the final image and video counts are the last reported values, or the start values when none was reported |
| Telemetry.FinalRunningCounts | dashboard/app.py:398-436 | the final posts and comments counts are the last overwrite plus all additions after it |
| Telemetry.LastImagesReport | dashboard/app.py:439-445 | when a line reports images and no later line does, its number is the final image count |
| Telemetry.LastVideosReport | dashboard/app.py:450-455 | when a line reports videos and no later line does, its number is the final video count |
| Telemetry.DigitlessLine | dashboard/app.py:398-456 | a line without digits and without "Fetching comments for:" changes no counter |
| Telemetry.ProgressSetsPosts | dashboard/app.py:398-417 | a progress line without a "Saved" match sets the posts count to its done count |
| Telemetry.QuietLine | dashboard/app.py:398-467 | a line without any trigger word, such as a "Found N posts" line, changes nothing |
| Supervisor.SwitchesFor | dashboard/app.py:333-338 | the appended switches are exactly those the form sets, each once, in the order user, no-media, no-comments |
| Supervisor.CommandHead | dashboard/app.py:328-332 | the seven words every command starts with: interpreter, script, target, mode and limit; Supervisor.BuildCommand states that every built command starts with it |
| Supervisor.BuildCommand | dashboard/app.py:327-338 | no command exactly when the target is empty; otherwise the fixed seven-word head followed by the form's switches |
| Supervisor.Unbuffered | dashboard/app.py:371 | the spawned vector starts `python -u` and continues with the command minus its first word |
| Supervisor.SpawnedVector | dashboard/app.py:332-371 | the spawned process is `python -u main.py <target> --mode <mode> --limit <limit>` followed by the form's switches |
| Supervisor.LineEnd | dashboard/app.py:389 | a line runs to just past the first line feed, or to the end of the stream |
| Supervisor.ReadLines | dashboard/app.py:389-394 | the lines joined give back the stream; none is empty, every one but the last ends in a line feed, and no line has a line feed inside |
| Supervisor.Tail | dashboard/app.py:475 | for the positive n the code uses, `lines[-n:]` holds min(n, len) lines and is a suffix of the input |
| Supervisor.DisplayIsStreamSuffix | dashboard/app.py:474-475 | the text in the live panel is a suffix of the bytes read so far |
| Supervisor.Rate | dashboard/app.py:470-471 | the rate is non-negative, 0 when no time has passed, and otherwise rate × elapsed = posts |
| Supervisor.ProgressFraction | dashboard/app.py:404-406 | no bar update when the total is 0 (the division raises); otherwise a value in [0, 1] that is 1 exactly when done ≥ total and equals done/total below that |
| Supervisor.Finish | dashboard/app.py:482-488 | success exactly for exit code 0; on failure, and only then, the error output is the last min(30, len) lines |
| Supervisor.ShowLines | dashboard/app.py:389-476 | the streaming loop publishes one snapshot per line, in order, each holding the fold of the lines so far, their last 15 lines, that line's bar position and the rate at that moment; it ends with the fold of all lines |
| Supervisor.Supervise | dashboard/app.py:373-488 | over the whole output stream: one faithful snapshot per line read, the final counters, and the exit outcome |
| ParquetExport.TargetNameAsWritten | dashboard/app.py:743 | the chained `replace` never lengthens the folder name |
| ParquetExport.AsWrittenDropsInner | dashboard/app.py:743 | the chained `replace` also deletes an `r_` inside the name, not only the leading one |
| ParquetExport.AsWrittenManglesName | dashboard/app.py:743 | for the subreddit `Star_Wars` the as-written rewrite yields `StaWars`, not the name |
| ParquetExport.TargetName | dashboard/app.py:743 | the corrected rewrite drops only a leading two-character kind marker |
| ParquetExport.TargetNameInvertsFolder | dashboard/app.py:743 | for every subreddit or user name, the corrected rewrite of its folder gives the name back |
| Cloud.ObjectKey | export/cloud.py:71 | the given key unless it is missing or empty; otherwise the file name |
| Cloud.ObjectUrl | export/cloud.py:75 | the URL starts with the bucket's virtual-hosted base and ends with exactly the key |
| Cloud.UrlDeterminesKey | export/cloud.py:75 | within a bucket and region, equal URLs mean equal keys |
| Cloud.UploadFile | export/cloud.py:65-80 | a URL exactly when the file exists and the client accepts the upload; that URL names the object key |
| Cloud.DirectoryKey | export/cloud.py:104-105 | the key is `prefix/rel`, or `rel` for an empty prefix, with each backslash turned into a slash; no backslash remains |
| Cloud.DirectoryKeyPosix | export/cloud.py:104-105 | without backslashes the key is exactly `prefix/rel` (or `rel`) |
| Cloud.DirectoryKeyIsObjectKey | export/cloud.py:104-107 | in a directory upload the file name never replaces the computed key |
| Cloud.UploadAccepted | export/cloud.py:107-109 | an accepted upload adds its relative path with its URL, and nothing else changes |
| Cloud.UploadRefused | export/cloud.py:107-108 | a refused upload leaves the result map unchanged |
| Cloud.UploadDirectory | export/cloud.py:93-112 | no entries for a missing directory; otherwise the map has exactly the relative paths whose upload was accepted, each mapped to the URL of its key |
| Cloud.DataDir | export/cloud.py:125 | the local folder `data/<prefix>_<name>` of one scraped subreddit or user; its relation to the S3 folder is Cloud.RunPrefixMirrorsDataDir |
| Cloud.RunPrefix | export/cloud.py:132 | the S3 folder `reddit/<prefix>_<name>/<timestamp>` of one upload run; Cloud.SubredditKeyLayout states the keys under it |
| Cloud.RunPrefixMirrorsDataDir | export/cloud.py:125-132 | the run's S3 folder is the local folder name under `reddit/`, followed by the timestamp |
| Cloud.UploadSubredditData | export/cloud.py:125-134 | no entries when the data folder is missing; otherwise a directory upload under the run's folder |
| Cloud.SubredditKeyLayout | export/cloud.py:104-132 | every uploaded key is `reddit/<prefix>_<name>/<timestamp>/<rel>` |
| Cloud.ListUploads | export/cloud.py:138-157 | no objects on a client error or a missing `Contents`; exactly the first min(50, len) objects printed, in order; the "... and N more" line appears exactly when there are more than 50, with N = len - 50 |
| SubredditStats.Get | analytics/subreddit_stats.py:32-34 | `get` without a default gives the value only for a present, non-null member |
| SubredditStats.GetOr | analytics/subreddit_stats.py:35-38 | `get` with a default gives the default only for an absent member; a null one stays null |
| SubredditStats.StripQuery | analytics/subreddit_stats.py:41 | the stripped URL has no `?`, is a prefix of the input, and is the whole input when there is no query |
| SubredditStats.StripQueryIdempotent | analytics/subreddit_stats.py:41-44 | stripping twice strips nothing more |
| SubredditStats.AssetUrl | analytics/subreddit_stats.py:41-44 | no URL exactly when the member is absent, null or empty; otherwise the URL without its query string |
| SubredditStats.GetAbout | analytics/subreddit_stats.py:20-53 | no metadata on a failed request, a non-200 status, a body without `data`, or a null creation time; otherwise the name, title, description, type and language passed through (null and absent alike give none), the counts defaulting to 0, `over18`, `wiki_enabled`, `spoilers_enabled` and the `allow_*` flags defaulting to false, the icon, banner and community icon stripped of their query, the header untouched |
| SubredditStats.HeaderKeepsQuery | analytics/subreddit_stats.py:43 | the header image URL passes through with its query string intact |
| SubredditStats.GetRules | analytics/subreddit_stats.py:65-88 | no rules on a bad exchange, an absent or null list, or any rule with a null timestamp; otherwise one shaped rule per entry, in order |
| SubredditStats.ShapeMod | analytics/subreddit_stats.py:112-116 | permissions default to `[]` only when absent; the added date appears exactly when it is truthy |
| SubredditStats.GetMods | analytics/subreddit_stats.py:100-121 | moderators in order when `data.children` is present; none on a bad exchange or an absent or null member |
| SubredditStats.GetFlairs | analytics/subreddit_stats.py:133-153 | one shaped flair per entry, in order; none on a bad exchange |
| SubredditStats.FullStats | analytics/subreddit_stats.py:167-197 | nothing exactly when the metadata is missing; the summary raises exactly on a null subscriber or active-user count; otherwise each count equals its list's length |
| Scenarios.NoTrigger | dashboard/app.py:423-456 | a line missing a character of a trigger yields no value for it |
| Scenarios.ImagesSeven | dashboard/app.py:439-456 | "Images: 7" overwrites the image count with 7 and leaves the videos alone |
| Scenarios.VideosOne | dashboard/app.py:450-455 | "Videos: 1" overwrites the video count with 1 |
| Scenarios.CommentsFive | dashboard/app.py:423-436 | "Comments: 5" overwrites the comment count with 5 and adds nothing |
| Scenarios.FetchingLine | dashboard/app.py:423-436 | "Fetching comments for: abc" adds one comment and overwrites nothing |
| Scenarios.ProgressTenRatio | dashboard/app.py:402-405 | "Progress: 10/100 posts" yields the pair (10, 100) |
| Scenarios.ProgressTen | dashboard/app.py:398-417 | "Progress: 10/100 posts" sets the posts count to 10 |
| Scenarios.CommentsWithoutNumber | dashboard/app.py:423-431 | "Comments: notanumber" changes nothing |
| Scenarios.MediaOverwrite | dashboard/app.py:439-456 | "Images: 3", "Videos: 1", "Images: 7" end with 7 images and 1 video |
| Scenarios.LastImagesWin | dashboard/app.py:439-445 | after "Images: 3", "Videos: 1", "Images: 7" the image count is 7 |
| Scenarios.LastVideosWin | dashboard/app.py:450-455 | after "Images: 3", "Videos: 1", "Images: 7" the video count is 1 |
| Scenarios.IncrementAfterAbsolute | dashboard/app.py:423-436 | "Comments: 5" then a fetching line end at 6, not 5 |
| Scenarios.ProgressRun | dashboard/app.py:398-488 | two progress lines end at the last done count; exit code 0 succeeds with both lines in the panel |
| Scenarios.FailureShowsLastThirty | dashboard/app.py:482-488 | a failed 40-line job shows exactly lines 10 to 39 |

## Left out

- The Streamlit page: widgets, metric rendering, balloons, the status strings with formatted floats, and the final `progress(1.0)` after the wait. These are display only and change no modelled value.
- Process spawning, `process.wait()`, the environment variables and the working directory. The child's whole output and its exit code are inputs to `Supervisor.Supervise`.
- The clock. `time.time() - start_time` is the input function `clock`, one value per line.
- UTF-8 decoding with replacement. Lines are modelled as character strings after decoding, and `\d` and `\s` as their ASCII classes, not the Unicode ones Python's `re` uses on `str`.
- The broad `except Exception` around the whole run (`dashboard/app.py:490-493`). The only raising path the model keeps inside the run is the zero-total division, which its own `except` swallows. Two raising paths are not modelled: over-long digit strings (see `Telemetry.Step` below) and a posts count beyond the floating-point range at line 471, which ends the run (see `Supervisor.Rate`, `Supervisor.ShowLines` and `Supervisor.Supervise` below).
- Text.RemoveAll: the contract bounds the length, returns a string without the pattern unchanged, and otherwise shortens the string by at least one occurrence. It does not say which occurrences go. That is stated, step by step, by `ParquetExport.RemoveAllDrops` (a leading occurrence is deleted) and `ParquetExport.RemoveAllKeepsPrefix` (a head that cannot start the pattern is kept), both proved from the definition, which deletes every non-overlapping occurrence scanning left to right.
- Telemetry.Step: numbers are read without a length limit. Python's `int()` refuses a digit string longer than the interpreter's integer-string limit (4300 digits by default since CPython 3.11, a runtime setting), and the bare `except` at `dashboard/app.py:419`, `430`, `446` and `457` then leaves that counter unchanged, where `Step` overwrites it (or, for `Saved`, adds to it) with the full value. In the progress branch, line 404 assigns the posts count before line 405 converts the total. So only an over-long done count leaves the posts count unchanged (the `except` at line 408); an over-long total alone leaves it overwritten exactly as `Step` does, and only skips the bar update (see `Supervisor.ShowLines` below). The limit depends on the interpreter version and configuration.
- The "Found N posts" status text (`dashboard/app.py:461-467`). It is status display only, and as written it does not parse (see above).
- Supervisor.Rate: real division stands in for Python's floating-point division, so rounding is not modelled. Neither is the range: with time elapsed, `posts_count / elapsed` at `dashboard/app.py:471` first converts the integer count to a float, which raises `OverflowError` for a count above the largest float (about 1.8·10^308, reachable with a 310-digit progress line). Line 471 has no handler of its own, so this ends the run (see the next two lines); `Rate` returns the exact quotient instead.
- Supervisor.ProgressFraction: real division stands in for floating point, as for the rate. A quotient `done / total` beyond the floating-point range raises at `dashboard/app.py:406`; the `except` at line 408 swallows it and the bar stays put, while `ProgressFraction` returns `Some(1.0)`.
- Supervisor.ShowLines: publishes a snapshot for every line. The source stops at the first line after which the posts count is beyond the floating-point range with time elapsed: the rate at `dashboard/app.py:471` raises, the `except Exception` at line 490 catches it, and no further line is read or shown. Also, when the progress branch raises after line 404 (an over-long total, or a quotient beyond the floating-point range at line 406), the source skips the bar update, while the snapshot still carries the position `Supervisor.LineProgress` gives.
- Supervisor.Supervise: always returns snapshots for every line and an exit outcome. On the overflow abort above, the source never reaches `process.wait()` (line 478) or the success and failure branches (lines 482-488); it shows only the error message of line 491.
- The `boto3` client. Whether an upload succeeds is the oracle `accepted`, and the listing response is an input. Bucket creation and credentials are not modelled.
- Cloud.UploadFile: the oracle `accepted` only chooses between a URL and `None`, the `ClientError` path caught at `export/cloud.py:78`. Any other exception the client raises (a missing-credentials error, for example) escapes `upload_file`. Because `upload_directory` has no handler (`export/cloud.py:101-109`), it then aborts `upload_directory` and `upload_subreddit_data` and loses the partial map. `Cloud.UploadDirectory` instead treats every file as uploaded or refused and carries on. Which exceptions the client raises belongs to `boto3`, which is not part of this model.
- The `rglob` walk and `is_file`: the relative paths of regular files are an input. The map key is modelled as the relative path string.
- `datetime.now().strftime(...)`: the timestamp string is an input.
- The Google Drive uploader. It is outside the S3 core, and every call in it goes to a remote API.
- HTTP requests, headers and timeouts. Each exchange is an input: a request failure, or a status with a body of the expected shape or not.
- SubredditStats.GetAbout: creation times are integers, and `datetime.fromtimestamp(...).isoformat()` is kept as the raw epoch value; float timestamps and the ISO rendering are not modelled. A timestamp outside the platform's date range (for example `10**20`) makes `fromtimestamp` raise, so the code returns `None`, while `GetAbout` returns the metadata: that range depends on the platform and the local time zone.
- SubredditStats.GetMods: moderator dates are kept as raw epoch values, not ISO strings. A truthy date outside the platform's date range (for example the millisecond value `10**12`) makes `fromtimestamp` raise at `analytics/subreddit_stats.py:115`, and the handler at lines 119-121 then returns `[]`, while `GetMods` returns the moderators. As for `GetAbout`, the range depends on the platform and the local time zone.
- SubredditStats.GetRules: the rule timestamps are likewise raw values, not ISO strings. A rule timestamp outside the platform's date range makes the code return `[]`, while `GetRules` returns the rules.
- SubredditStats.FullStats: `fetched_at` (the current time) is not part of the result, and the printed summary lines are modelled only by whether printing raises.
- `save_subreddit_stats`, CSV/JSON/Excel export and every other dashboard page. They are outside the modelled core.

## Findings

| source | as written | input that shows it | evidently intended | confidence | as-written member | corrected member |
|---|---|---|---|---|---|---|
| dashboard/app.py:743 | `export_sub.replace('r_', '').replace('u_', '')` deletes every `r_` and `u_` in the folder name | folder `r_Star_Wars` gives the target `StaWars` | drop only the leading kind marker `r_` or `u_`, giving `Star_Wars` | high; not executed | ParquetExport.AsWrittenManglesName | ParquetExport.TargetNameInvertsFolder |

=== FILE: cloud.dfy ===
/** The S3 side of the exporter: object keys and public URLs, the per-file keys of a
    directory upload and its result map, the per-subreddit layout, and the listing cap.
    The S3 client is an oracle saying whether an upload of a given key succeeded. */
module Cloud {
  import opened Wrappers
  import opened Text

  /** `s3_key or local_path.name`: the given key unless it is missing or empty. */
  function ObjectKey(fileName: String, key: Option<String>): (r: String)
    ensures key.Some? && key.value != [] ==> r == key.value
    ensures key.None? || key.value == [] ==> r == fileName
  {
    if key.Some? && key.value != [] then key.value else fileName
  }

  /** Everything of a public object URL before the key. */
  function UrlBase(bucket: String, region: String): String {
    "https://" + bucket + ".s3." + region + ".amazonaws.com/"
  }

  /** The virtual-hosted-style URL of an uploaded object. */
  function ObjectUrl(bucket: String, region: String, key: String): (r: String)
    ensures StartsWith(r, "https://" + bucket + ".s3." + region + ".amazonaws.com/")
    ensures r[|UrlBase(bucket, region)|..] == key
  {
    UrlBase(bucket, region) + key
  }

  /** Within one bucket and region, the URL names the key: different keys, different URLs. */
  lemma UrlDeterminesKey(bucket: String, region: String, k1: String, k2: String)
    requires ObjectUrl(bucket, region, k1) == ObjectUrl(bucket, region, k2)
    ensures k1 == k2
  {
    assert k1 == ObjectUrl(bucket, region, k1)[|UrlBase(bucket, region)|..];
  }

  /** `upload_file`: `None` when the local file is missing or the client raises a
      `ClientError`, the object URL otherwise. */
  function UploadFile(fileExists: bool, fileName: String, key: Option<String>,
                      bucket: String, region: String, accepted: bool): (r: Option<String>)
    ensures r.Some? <==> fileExists && accepted
    ensures r.Some? ==> r.value == ObjectUrl(bucket, region, ObjectKey(fileName, key))
  {
    if !fileExists then None
    else if accepted then Some(ObjectUrl(bucket, region, ObjectKey(fileName, key)))
    else None
  }

  /** The Windows path fix: a backslash becomes a slash, every other character stays. */
  function Slash(c: char): char {
    if c == '\\' then '/' else c
  }

  /** The key of a file at relative path `rel` in a directory upload: `prefix/rel`, just
      `rel` when the prefix is empty, with every backslash turned into a slash. */
  function DirectoryKey(prefix: String, rel: String): (r: String)
    ensures '\\' !in r
    ensures prefix == [] ==> |r| == |rel| && forall i | 0 <= i < |rel| :: r[i] == Slash(rel[i])
    ensures prefix != [] ==> && |r| == |prefix| + 1 + |rel|
                             && (forall i | 0 <= i < |prefix| :: r[i] == Slash(prefix[i]))
                             && r[|prefix|] == '/'
                             && (forall i | 0 <= i < |rel| :: r[|prefix| + 1 + i] == Slash(rel[i]))
  {
    var raw := if prefix != [] then prefix + "/" + rel else rel;
    ReplaceChar(raw, '\\', '/')
  }

  /** Without backslashes nothing changes: on a POSIX host the key is exactly `prefix/rel`. */
  lemma DirectoryKeyPosix(prefix: String, rel: String)
    requires '\\' !in prefix && '\\' !in rel
    ensures DirectoryKey(prefix, rel) == if prefix == [] then rel else prefix + "/" + rel
  {
    var r := DirectoryKey(prefix, rel);
    var raw := if prefix == [] then rel else prefix + "/" + rel;
    assert |r| == |raw|;
    forall i | 0 <= i < |r| ensures r[i] == raw[i] {
      if prefix != [] && i > |prefix| {
        assert raw[i] == rel[i - |prefix| - 1];
      }
    }
  }

  /** In a directory upload the file name never stands in for the key: the key is empty
      only when the relative path is, and then both are the same empty string. */
  lemma DirectoryKeyIsObjectKey(prefix: String, rel: String)
    ensures ObjectKey(rel, Some(DirectoryKey(prefix, rel))) == DirectoryKey(prefix, rel)
  {
    var key := DirectoryKey(prefix, rel);
    if key == [] {
      assert |rel| == 0;
    }
  }

  /** `uploaded` maps exactly the paths of `done` whose key was accepted, each to its
      object URL. */
  ghost predicate UploadedExactly(uploaded: map<String, String>, done: seq<String>, prefix: String,
                                  bucket: String, region: String, accepted: String -> bool) {
    && (forall rel :: rel in uploaded <==> rel in done && accepted(DirectoryKey(prefix, rel)))
    && (forall rel | rel in uploaded :: uploaded[rel] == ObjectUrl(bucket, region, DirectoryKey(prefix, rel)))
  }

  /** Handling one more path whose key is accepted adds that path with its URL. */
  lemma UploadAccepted(uploaded: map<String, String>, done: seq<String>, rel: String, prefix: String,
                       bucket: String, region: String, accepted: String -> bool)
    requires UploadedExactly(uploaded, done, prefix, bucket, region, accepted)
    requires accepted(DirectoryKey(prefix, rel))
    ensures UploadedExactly(uploaded[rel := ObjectUrl(bucket, region, DirectoryKey(prefix, rel))], done + [rel],
                            prefix, bucket, region, accepted)
  {
    var next := uploaded[rel := ObjectUrl(bucket, region, DirectoryKey(prefix, rel))];
    forall r ensures r in next <==> r in done + [rel] && accepted(DirectoryKey(prefix, r)) {
      assert r in done + [rel] <==> r in done || r == rel;
    }
  }

  /** Handling one more path whose key is refused leaves the map as it was. */
  lemma UploadRefused(uploaded: map<String, String>, done: seq<String>, rel: String, prefix: String,
                      bucket: String, region: String, accepted: String -> bool)
    requires UploadedExactly(uploaded, done, prefix, bucket, region, accepted)
    requires !accepted(DirectoryKey(prefix, rel))
    ensures UploadedExactly(uploaded, done + [rel], prefix, bucket, region, accepted)
  {
    forall r ensures r in uploaded <==> r in done + [rel] && accepted(DirectoryKey(prefix, r)) {
      assert r in done + [rel] <==> r in done || r == rel;
    }
  }

  /** `upload_directory`. `files` are the relative paths of the regular files under the
      directory, as `rglob` yields them; `accepted(key)` says whether the client uploads
      the object with that key. The result maps the relative path (not the S3 key) of
      every file whose upload returned a URL to that URL; a missing directory gives an
      empty map. */
  method UploadDirectory(dirExists: bool, files: seq<String>, prefix: String,
                         bucket: String, region: String, accepted: String -> bool)
    returns (uploaded: map<String, String>)
    ensures !dirExists ==> uploaded == map[]
    ensures dirExists ==> forall rel :: rel in uploaded <==> rel in files && accepted(DirectoryKey(prefix, rel))
    ensures forall rel | rel in uploaded :: uploaded[rel] == ObjectUrl(bucket, region, DirectoryKey(prefix, rel))
  {
    uploaded := map[];
    if !dirExists {
      return;
    }
    for i := 0 to |files|
      invariant UploadedExactly(uploaded, files[..i], prefix, bucket, region, accepted)
    {
      var rel := files[i];
      var key := DirectoryKey(prefix, rel);
      var url := UploadFile(true, rel, Some(key), bucket, region, accepted(key));
      DirectoryKeyIsObjectKey(prefix, rel);
      assert files[..i + 1] == files[..i] + [rel];
      if url.Some? {
        assert url.value == ObjectUrl(bucket, region, key);
        UploadAccepted(uploaded, files[..i], rel, prefix, bucket, region, accepted);
        uploaded := uploaded[rel := url.value];
      } else {
        UploadRefused(uploaded, files[..i], rel, prefix, bucket, region, accepted);
      }
    }
    assert files[..|files|] == files;
    assert UploadedExactly(uploaded, files, prefix, bucket, region, accepted);
  }

  /** The local folder of a scraped subreddit or user: `data/<prefix>_<name>`. */
  function DataDir(prefix: String, subreddit: String): String {
    "data/" + prefix + "_" + subreddit
  }

  /** The S3 folder of one upload run: `reddit/<prefix>_<name>/<timestamp>`. */
  function RunPrefix(prefix: String, subreddit: String, timestamp: String): String {
    "reddit/" + prefix + "_" + subreddit + "/" + timestamp
  }

  /** The S3 folder mirrors the local folder name under `reddit/`, one level per run. */
  lemma RunPrefixMirrorsDataDir(prefix: String, subreddit: String, timestamp: String)
    ensures RunPrefix(prefix, subreddit, timestamp)
            == "reddit/" + DataDir(prefix, subreddit)[5..] + "/" + timestamp
  {
    assert DataDir(prefix, subreddit)[5..] == prefix + "_" + subreddit;
  }

  /** `upload_subreddit_data`: nothing when the local folder is missing, otherwise a
      directory upload of it under the run's folder. */
  method UploadSubredditData(dataExists: bool, subreddit: String, prefix: String, timestamp: String,
                             files: seq<String>, bucket: String, region: String, accepted: String -> bool)
    returns (uploaded: map<String, String>)
    ensures !dataExists ==> uploaded == map[]
    ensures dataExists ==> forall rel :: rel in uploaded <==>
              rel in files && accepted(DirectoryKey(RunPrefix(prefix, subreddit, timestamp), rel))
    ensures forall rel | rel in uploaded ::
              uploaded[rel] == ObjectUrl(bucket, region, DirectoryKey(RunPrefix(prefix, subreddit, timestamp), rel))
  {
    if !dataExists {
      return map[];
    }
    uploaded := UploadDirectory(true, files, RunPrefix(prefix, subreddit, timestamp), bucket, region, accepted);
  }

  /** An uploaded file's key of a subreddit run: the run folder, a slash, then the relative
      path, when no part holds a backslash. */
  lemma SubredditKeyLayout(prefix: String, subreddit: String, timestamp: String, rel: String)
    requires '\\' !in prefix && '\\' !in subreddit && '\\' !in timestamp && '\\' !in rel
    ensures DirectoryKey(RunPrefix(prefix, subreddit, timestamp), rel)
            == "reddit/" + prefix + "_" + subreddit + "/" + timestamp + "/" + rel
  {
    var p := RunPrefix(prefix, subreddit, timestamp);
    assert '\\' !in p by {
      assert forall i | 0 <= i < |p| :: p[i] in "reddit/" || p[i] in prefix || p[i] == '_' || p[i] in subreddit || p[i] == '/' || p[i] in timestamp;
    }
    DirectoryKeyPosix(p, rel);
  }

  // ---------------------------------------------------------------------------------------
  // Listing

  datatype S3Object = S3Object(key: String, size: nat)

  /** What `list_objects_v2` gave: a client error, or a response with or without `Contents`. */
  datatype ListResponse = ListFailed | Listed(contents: Option<seq<S3Object>>)

  const ListingCap: nat := 50

  /** `list_uploads`: the objects returned, the entries printed, and the "... and N more"
      count printed when there are more than the cap. */
  datatype Listing = Listing(objects: seq<S3Object>, printed: seq<S3Object>, more: Option<nat>)

  function ListUploads(response: ListResponse): (r: Listing)
    ensures response.ListFailed? || response.contents.None? ==> r.objects == [] && r.printed == [] && r.more == None
    ensures response.Listed? && response.contents.Some? ==> r.objects == response.contents.value
    ensures |r.printed| <= ListingCap && r.printed <= r.objects
    ensures r.more.Some? <==> |r.objects| > ListingCap
    ensures |r.printed| + r.more.GetOr(0) == |r.objects|
    ensures r.printed == r.objects[..if |r.objects| <= ListingCap then |r.objects| else ListingCap]
    ensures r.more.Some? ==> r.more.value == |r.objects| - ListingCap
  {
    var objects := if response.Listed? then response.contents.GetOr([]) else [];
    var printed := if |objects| <= ListingCap then objects else objects[..ListingCap];
    Listing(objects, printed, if |objects| > ListingCap then Some(|objects| - ListingCap) else None)
  }
}

=== FILE: counter.dfy ===
/** One counter of the scrape monitor as a fold over per-line effects.

    Every output line can overwrite a counter with an absolute value and then add to it
    (for posts: a progress line sets the count, a "Saved N ... posts" line adds N; for
    comments: a "Comments: N" line sets it, a "Fetching comments for:" line adds 1). This
    module gives the closed form of such a fold: the last overwrite, plus everything
    added at or after it. */
module Counter {
  import opened Wrappers

  /** What one line does to one counter: overwrite with `reset` if present, then add `add`. */
  datatype Effect = Effect(reset: Option<nat>, add: nat)

  function Apply(e: Effect, c: nat): nat {
    e.reset.GetOr(c) + e.add
  }

  /** The counter after the lines' effects, applied first to last starting from `c`. */
  function Replay(c: nat, es: seq<Effect>): nat
    decreases |es|
  {
    if |es| == 0 then c else Replay(Apply(es[0], c), es[1..])
  }

  /** The value of the last overwrite in `es`, if any. */
  function LastReset(es: seq<Effect>): (r: Option<nat>)
    ensures r.Some? ==> exists k | 0 <= k < |es| :: es[k].reset == r
    ensures r.None? ==> forall k | 0 <= k < |es| :: es[k].reset.None?
  {
    if |es| == 0 then None
    else if es[|es| - 1].reset.Some? then es[|es| - 1].reset
    else LastReset(es[..|es| - 1])
  }

  /** The total added by the effects at and after the last overwrite (by all of them when
      none overwrites). */
  function AddsSinceReset(es: seq<Effect>): nat {
    if |es| == 0 then 0
    else if es[|es| - 1].reset.Some? then es[|es| - 1].add
    else AddsSinceReset(es[..|es| - 1]) + es[|es| - 1].add
  }

  /** Everything the effects add, overwrites aside. */
  function TotalAdded(es: seq<Effect>): nat {
    if |es| == 0 then 0 else TotalAdded(es[..|es| - 1]) + es[|es| - 1].add
  }

  /** When effect `k` overwrites and none after it does, the counter's last overwrite is
      effect `k`'s and what counts on top of it is everything added from `k` on. */
  lemma {:induction false} LastResetWins(es: seq<Effect>, k: nat)
    requires k < |es| && es[k].reset.Some?
    requires forall j | k < j < |es| :: es[j].reset.None?
    ensures LastReset(es) == es[k].reset
    ensures AddsSinceReset(es) == TotalAdded(es[k..])
    decreases |es|
  {
    if k == |es| - 1 {
      assert es[k..] == [es[k]];
      assert [es[k]][..0] == [];
    } else {
      var init := es[..|es| - 1];
      LastResetWins(init, k);
      assert es[k..][..|es[k..]| - 1] == init[k..];
    }
  }

  lemma {:induction false} ReplaySnoc(c: nat, es: seq<Effect>, e: Effect)
    ensures Replay(c, es + [e]) == Apply(e, Replay(c, es))
    decreases |es|
  {
    if |es| == 0 {
      assert es + [e] == [e];
    } else {
      assert (es + [e])[1..] == es[1..] + [e];
      ReplaySnoc(Apply(es[0], c), es[1..], e);
    }
  }

  lemma {:induction false} ReplayAppend(c: nat, a: seq<Effect>, b: seq<Effect>)
    ensures Replay(c, a + b) == Replay(Replay(c, a), b)
    decreases |a|
  {
    if |a| == 0 {
      assert a + b == b;
    } else {
      assert (a + b)[1..] == a[1..] + b;
      ReplayAppend(Apply(a[0], c), a[1..], b);
    }
  }

  /** The closed form: after the effects, a counter holds its last overwrite (or its initial
      value when nothing overwrote it) plus whatever was added from that point on. */
  lemma {:induction false} ReplayClosedForm(c: nat, es: seq<Effect>)
    ensures Replay(c, es) == LastReset(es).GetOr(c) + AddsSinceReset(es)
    decreases |es|
  {
    if |es| > 0 {
      var init := es[..|es| - 1];
      var e := es[|es| - 1];
      assert es == init + [e];
      ReplaySnoc(c, init, e);
      ReplayClosedForm(c, init);
    }
  }

  /** Without any overwrite the counter only grows. */
  lemma NoResetGrows(c: nat, es: seq<Effect>)
    requires forall k | 0 <= k < |es| :: es[k].reset.None?
    ensures Replay(c, es) >= c
  {
    ReplayClosedForm(c, es);
  }

  /** Effects that only overwrite leave exactly the last overwrite. */
  lemma OverwritesOnly(c: nat, es: seq<Effect>)
    requires forall k | 0 <= k < |es| :: es[k].add == 0
    ensures Replay(c, es) == LastReset(es).GetOr(c)
  {
    ReplayClosedForm(c, es);
    AddsZero(es);
  }

  lemma {:induction false} AddsZero(es: seq<Effect>)
    requires forall k | 0 <= k < |es| :: es[k].add == 0
    ensures AddsSinceReset(es) == 0
    decreases |es|
  {
    if |es| > 0 {
      AddsZero(es[..|es| - 1]);
    }
  }
}

=== FILE: parquet.dfy ===
/** The target name handed to the Parquet exporter for a scraped folder such as `r_python`
    or `u_spez` (folders are named `<kind>_<name>`, as `Cloud.DataDir` lays them out). */
module ParquetExport {
  import opened Text

  /** The name as the dashboard computes it: `folder.replace('r_', '').replace('u_', '')`,
      which deletes every occurrence, not only the leading kind marker. */
  function TargetNameAsWritten(folder: String): (r: String)
    ensures |r| <= |folder|
  {
    RemoveAll(RemoveAll(folder, "r_"), "u_")
  }

  /** Deleting from a string that starts with a character the pattern does not start with
      keeps that character in front. */
  lemma RemoveAllKeeps(c: char, rest: String, pat: String)
    requires |pat| > 0 && pat[0] != c
    ensures RemoveAll([c] + rest, pat) == [c] + RemoveAll(rest, pat)
  {
    assert ([c] + rest)[1..] == rest;
    assert !OccursAt([c] + rest, pat, 0) by {
      assert ([c] + rest)[0] == c;
    }
  }

  /** Regrouping a character, a head and a tail. */
  lemma ConsRegroup(x: String, y: String, c: char, head: String, tail: String)
    requires x == [c] + y && y == head + tail
    ensures x == ([c] + head) + tail
  {
  }

  /** One more kept character in front of a kept head. */
  lemma RemoveAllKeepsOneMore(c: char, head: String, rest: String, pat: String)
    requires |pat| > 0 && pat[0] != c
    requires RemoveAll(head + rest, pat) == head + RemoveAll(rest, pat)
    ensures RemoveAll(([c] + head) + rest, pat) == ([c] + head) + RemoveAll(rest, pat)
  {
    assert ([c] + head) + rest == [c] + (head + rest);
    RemoveAllKeeps(c, head + rest, pat);
    ConsRegroup(RemoveAll(([c] + head) + rest, pat), RemoveAll(head + rest, pat), c, head, RemoveAll(rest, pat));
  }

  /** Deleting from a string whose head holds no character the pattern starts with keeps
      that head in front. */
  lemma {:induction false} RemoveAllKeepsPrefix(head: String, rest: String, pat: String)
    requires |pat| > 0 && pat[0] !in head
    ensures RemoveAll(head + rest, pat) == head + RemoveAll(rest, pat)
    decreases |head|
  {
    if |head| == 0 {
      assert head + rest == rest;
    } else {
      RemoveAllKeepsPrefix(head[1..], rest, pat);
      RemoveAllKeepsOneMore(head[0], head[1..], rest, pat);
      assert head == [head[0]] + head[1..];
    }
  }

  /** Deleting from a string that starts with the pattern drops that occurrence. */
  lemma RemoveAllDrops(pat: String, rest: String)
    requires |pat| > 0
    ensures RemoveAll(pat + rest, pat) == RemoveAll(rest, pat)
  {
    assert (pat + rest)[..|pat|] == pat;
    assert (pat + rest)[|pat|..] == rest;
  }

  /** A string lacking one of the pattern's characters loses nothing. */
  lemma RemoveAllMissingChar(s: String, pat: String, j: nat)
    requires j < |pat| && pat[j] !in s
    ensures RemoveAll(s, pat) == s
  {
    ContainsChars(s, pat);
  }

  /** The as-written rewrite also deletes an `r_` inside the name: a folder `r_` + `head`
      + `r_` + `tail` yields `head + tail` when neither piece can form `r_` or `u_`. */
  lemma AsWrittenDropsInner(head: String, tail: String)
    requires 'r' !in head && 'u' !in head && '_' !in tail && 'u' !in tail
    ensures TargetNameAsWritten("r_" + (head + ("r_" + tail))) == head + tail
  {
    var name := head + ("r_" + tail);
    RemoveAllDrops("r_", name);
    RemoveAllKeepsPrefix(head, "r_" + tail, "r_");
    RemoveAllDrops("r_", tail);
    RemoveAllMissingChar(tail, "r_", 1);
    assert 'u' !in head + tail;
    RemoveAllMissingChar(head + tail, "u_", 0);
  }

  /** The subreddit `Star_Wars` splits around its inner `r_` into pieces that cannot form
      either marker. */
  lemma StarWarsPieces(name: String)
    requires name == "Star_Wars"
    ensures name == name[..3] + ("r_" + name[5..])
    ensures 'r' !in name[..3] && 'u' !in name[..3] && '_' !in name[5..] && 'u' !in name[5..]
    ensures |name[..3] + name[5..]| != |name|
  {
    assert name[..3] == "Sta";
    assert name[5..] == "Wars";
  }

  /** The as-written rewrite mangles a subreddit whose own name contains `r_`: the folder
      of `Star_Wars` is exported as `StaWars`. */
  lemma AsWrittenManglesName(name: String)
    requires name == "Star_Wars"
    ensures TargetNameAsWritten("r_" + name) == name[..3] + name[5..]
    ensures TargetNameAsWritten("r_" + name) != name
  {
    StarWarsPieces(name);
    AsWrittenDropsInner(name[..3], name[5..]);
  }

  /** The evident intent: drop the two-character kind marker `r_` or `u_` at the front,
      and nothing else. */
  function TargetName(folder: String): (r: String)
    ensures StartsWith(folder, "r_") || StartsWith(folder, "u_") ==> folder == folder[..2] + r
    ensures !(StartsWith(folder, "r_") || StartsWith(folder, "u_")) ==> r == folder
  {
    if StartsWith(folder, "r_") || StartsWith(folder, "u_") then folder[2..] else folder
  }

  /** The corrected rewrite undoes the folder naming: the folder of any subreddit or user
      yields that very name back, underscores and all. */
  lemma TargetNameInvertsFolder(kind: String, name: String)
    requires kind == "r" || kind == "u"
    ensures TargetName(kind + "_" + name) == name
  {
    var folder := kind + "_" + name;
    assert folder[..2] == kind + "_";
    assert folder[2..] == name;
  }
}

=== FILE: patterns.dfy ===
/** The regular-expression searches of the scrape monitor, with `\d` and `\s` read as ASCII.

    Each pattern is given twice: declaratively, as a predicate saying which spans of a line
    make up a match (greedy `\d+` groups are maximal digit runs), and operationally, as the
    leftmost-match scan that `re.search` performs. The search functions' contracts connect
    the two: a reported match is a match, nothing to its left is, and "no match" means none
    anywhere. */
module Patterns {
  import opened Wrappers
  import opened Text

  /** `s[a..b]` is whitespace only. */
  ghost predicate SpacesBetween(s: String, a: nat, b: nat) {
    a <= b <= |s| && forall j | a <= j < b :: IsSpace(s[j])
  }

  /** `s[a..b]` is a non-empty digit run that cannot be extended to the right: the span a
      greedy `(\d+)` group captures when started at `a`. */
  ghost predicate DigitGroup(s: String, a: nat, b: nat) {
    a < b <= |s| && (forall j | a <= j < b :: IsDigit(s[j])) && (b == |s| || !IsDigit(s[b]))
  }

  /** The end of the whitespace run starting at `i`. */
  function SkipSpaces(s: String, i: nat): (k: nat)
    requires i <= |s|
    ensures SpacesBetween(s, i, k)
    ensures k == |s| || !IsSpace(s[k])
    decreases |s| - i
  {
    if i < |s| && IsSpace(s[i]) then SkipSpaces(s, i + 1) else i
  }

  /** The end of the digit run starting at `i`. */
  function SkipDigits(s: String, i: nat): (k: nat)
    requires i <= |s|
    ensures i <= k <= |s|
    ensures forall j | i <= j < k :: IsDigit(s[j])
    ensures k == |s| || !IsDigit(s[k])
    decreases |s| - i
  {
    if i < |s| && IsDigit(s[i]) then SkipDigits(s, i + 1) else i
  }

  /** A whitespace run that stops at a non-space is the one `SkipSpaces` finds. */
  lemma SpacesEnd(s: String, i: nat, k: nat)
    requires SpacesBetween(s, i, k)
    requires k < |s| && !IsSpace(s[k])
    ensures SkipSpaces(s, i) == k
  {
  }

  /** A maximal digit run starting at `i` is the one `SkipDigits` finds. */
  lemma DigitsEnd(s: String, i: nat, k: nat)
    requires DigitGroup(s, i, k)
    ensures SkipDigits(s, i) == k
  {
  }

  // ---------------------------------------------------------------------------------------
  // `Trigger\s*(\d+)` (spaces allowed) and `Trigger(\d+)` (spaces not allowed)

  /** A literal trigger followed by a captured number; `spaces` says whether `\s*` sits
      between them. `Saved (\d+)` is the trigger "Saved " without spaces. */
  datatype TriggerPattern = TriggerPattern(trigger: String, spaces: bool)

  const SavedPattern := TriggerPattern("Saved ", false)
  const CommentsPattern := TriggerPattern("Comments:", true)
  const ImagesPattern := TriggerPattern("Images:", true)
  const VideosPattern := TriggerPattern("Videos:", true)

  /** The position of a match and the span of its captured digit group. */
  datatype Hit = Hit(start: nat, from: nat, to: nat)

  /** The pattern matches at `i`, capturing `s[a..b]`. */
  ghost predicate TriggerMatch(s: String, p: TriggerPattern, i: nat, a: nat, b: nat) {
    && OccursAt(s, p.trigger, i)
    && (if p.spaces then SpacesBetween(s, i + |p.trigger|, a) else a == i + |p.trigger|)
    && DigitGroup(s, a, b)
  }

  /** The match of `p` anchored at `i`, if any. */
  function TriggerAt(s: String, p: TriggerPattern, i: nat): (r: Option<Hit>)
    requires i <= |s|
    ensures r.Some? ==> r.value.start == i && TriggerMatch(s, p, i, r.value.from, r.value.to)
  {
    if !OccursAt(s, p.trigger, i) then None
    else
      var a := if p.spaces then SkipSpaces(s, i + |p.trigger|) else i + |p.trigger|;
      if a < |s| && IsDigit(s[a]) then Some(Hit(i, a, SkipDigits(s, a))) else None
  }

  /** Every match anchored at `i` is the one `TriggerAt` reports: the scan misses no match
      and the captured span is unique. */
  lemma TriggerAtComplete(s: String, p: TriggerPattern, i: nat, a: nat, b: nat)
    ensures TriggerMatch(s, p, i, a, b) ==> i <= |s| && TriggerAt(s, p, i) == Some(Hit(i, a, b))
  {
    if TriggerMatch(s, p, i, a, b) {
      if p.spaces {
        SpacesEnd(s, i + |p.trigger|, a);
      }
      DigitsEnd(s, a, b);
    }
  }

  /** `re.search` for a trigger pattern, scanning from `i`: the leftmost match at or after `i`. */
  function SearchTriggerFrom(s: String, p: TriggerPattern, i: nat): (r: Option<Hit>)
    requires i <= |s|
    ensures r.Some? ==> i <= r.value.start && TriggerMatch(s, p, r.value.start, r.value.from, r.value.to)
    ensures r.Some? ==> forall j: nat, a: nat, b: nat | i <= j < r.value.start :: !TriggerMatch(s, p, j, a, b)
    ensures r.None? ==> forall j: nat, a: nat, b: nat | i <= j :: !TriggerMatch(s, p, j, a, b)
    decreases |s| - i
  {
    forall j: nat, a: nat, b: nat | i <= j
      ensures TriggerMatch(s, p, j, a, b) ==> j <= |s| && TriggerAt(s, p, j) == Some(Hit(j, a, b))
    {
      TriggerAtComplete(s, p, j, a, b);
    }
    var here := TriggerAt(s, p, i);
    if here.Some? || i == |s| then here else SearchTriggerFrom(s, p, i + 1)
  }

  /** The number a trigger pattern captures in `s`: `int(re.search(p, s).group(1))`, or
      `None` when the search fails. */
  function TriggerValue(s: String, p: TriggerPattern): (r: Option<nat>)
    ensures r.Some? <==> exists i, a, b :: TriggerMatch(s, p, i, a, b)
  {
    match SearchTriggerFrom(s, p, 0)
    case None => None
    case Some(h) => Some(DigitsValue(s[h.from..h.to]))
  }

  /** The value reported is the number at the leftmost match: whatever span a match at the
      leftmost matching position captures, it reads as the reported value. */
  lemma TriggerValueIsLeftmost(s: String, p: TriggerPattern, i: nat, a: nat, b: nat)
    requires TriggerMatch(s, p, i, a, b)
    requires forall j: nat, a': nat, b': nat | j < i :: !TriggerMatch(s, p, j, a', b')
    ensures TriggerValue(s, p) == Some(DigitsValue(s[a..b]))
  {
    var h := SearchTriggerFrom(s, p, 0).value;
    TriggerAtComplete(s, p, i, a, b);
    TriggerAtComplete(s, p, h.start, h.from, h.to);
  }

  /** A trigger pattern can only match where its trigger occurs. */
  lemma TriggerNeedsLiteral(s: String, p: TriggerPattern)
    ensures TriggerValue(s, p).Some? ==> Contains(s, p.trigger)
  {
    if TriggerValue(s, p).Some? {
      var h := SearchTriggerFrom(s, p, 0).value;
      assert OccursAt(s, p.trigger, h.start);
    }
  }

  /** A trigger pattern only reports a number when the line holds a digit. */
  lemma TriggerNeedsDigit(s: String, p: TriggerPattern)
    ensures TriggerValue(s, p).Some? ==> exists k | 0 <= k < |s| :: IsDigit(s[k])
  {
    if TriggerValue(s, p).Some? {
      var h := SearchTriggerFrom(s, p, 0).value;
      assert IsDigit(s[h.from]);
    }
  }

  // ---------------------------------------------------------------------------------------
  // `(\d+)\s*/\s*(\d+)`

  /** The spans of a match of the ratio pattern (digits, spaces, slash, spaces, digits): the first group `s[start..end1]`, the
      slash at `slash`, the second group `s[from..to]`. */
  datatype RatioHit = RatioHit(start: nat, end1: nat, slash: nat, from: nat, to: nat)

  ghost predicate RatioMatch(s: String, h: RatioHit) {
    && DigitGroup(s, h.start, h.end1)
    && SpacesBetween(s, h.end1, h.slash)
    && h.slash < |s| && s[h.slash] == '/'
    && SpacesBetween(s, h.slash + 1, h.from)
    && DigitGroup(s, h.from, h.to)
  }

  /** The match of the ratio pattern anchored at `i`, if any. */
  function RatioAt(s: String, i: nat): (r: Option<RatioHit>)
    requires i <= |s|
    ensures r.Some? ==> r.value.start == i && RatioMatch(s, r.value)
  {
    if i < |s| && IsDigit(s[i]) then
      var end1 := SkipDigits(s, i);
      var slash := SkipSpaces(s, end1);
      if slash < |s| && s[slash] == '/' then
        var from := SkipSpaces(s, slash + 1);
        if from < |s| && IsDigit(s[from]) then Some(RatioHit(i, end1, slash, from, SkipDigits(s, from)))
        else None
      else None
    else None
  }

  /** Every match anchored at `h.start` is the one `RatioAt` reports. In particular the first
      group is always a maximal digit run: a shorter one would leave a digit where the
      pattern needs a space or the slash. */
  lemma RatioAtComplete(s: String, h: RatioHit)
    ensures RatioMatch(s, h) ==> h.start <= |s| && RatioAt(s, h.start) == Some(h)
  {
    if RatioMatch(s, h) {
      DigitsEnd(s, h.start, h.end1);
      SpacesEnd(s, h.end1, h.slash);
      SpacesEnd(s, h.slash + 1, h.from);
      DigitsEnd(s, h.from, h.to);
    }
  }

  /** `re.search` of the ratio pattern scanning from `i`: the leftmost match. */
  function SearchRatioFrom(s: String, i: nat): (r: Option<RatioHit>)
    requires i <= |s|
    ensures r.Some? ==> i <= r.value.start && RatioMatch(s, r.value)
    ensures r.Some? ==> forall h: RatioHit | i <= h.start < r.value.start :: !RatioMatch(s, h)
    ensures r.None? ==> forall h: RatioHit | i <= h.start :: !RatioMatch(s, h)
    decreases |s| - i
  {
    forall h: RatioHit | i <= h.start
      ensures RatioMatch(s, h) ==> h.start <= |s| && RatioAt(s, h.start) == Some(h)
    {
      RatioAtComplete(s, h);
    }
    var here := RatioAt(s, i);
    if here.Some? || i == |s| then here else SearchRatioFrom(s, i + 1)
  }

  /** The pair `(int(group(1)), int(group(2)))` of the leftmost ratio match, if any. */
  function RatioValues(s: String): (r: Option<(nat, nat)>)
    ensures r.Some? <==> exists h :: RatioMatch(s, h)
  {
    match SearchRatioFrom(s, 0)
    case None => None
    case Some(h) => Some((DigitsValue(s[h.start..h.end1]), DigitsValue(s[h.from..h.to])))
  }

  /** A ratio match always contains a slash, so the code's extra `"/" in line` test never
      rejects a line the regex accepts. */
  lemma RatioHasSlash(s: String)
    requires RatioValues(s).Some?
    ensures Contains(s, "/")
  {
    var h := SearchRatioFrom(s, 0).value;
    assert OccursAt(s, "/", h.slash);
  }

  /** The pair reported is the one of the leftmost match. */
  lemma RatioValuesIsLeftmost(s: String, h: RatioHit)
    requires RatioMatch(s, h)
    requires forall h': RatioHit | h'.start < h.start :: !RatioMatch(s, h')
    ensures RatioValues(s) == Some((DigitsValue(s[h.start..h.end1]), DigitsValue(s[h.from..h.to])))
  {
    var r := SearchRatioFrom(s, 0);
    assert r.Some?;
    var found := r.value;
    assert found.start == h.start;
    RatioAtComplete(s, h);
    RatioAtComplete(s, found);
    assert found == h;
  }

  /** A ratio match starts on a digit. */
  lemma RatioStartsOnDigit(s: String, h: RatioHit)
    ensures RatioMatch(s, h) ==> h.start < |s| && IsDigit(s[h.start])
  {
  }
}

=== FILE: scenarios.dfy ===
/** Worked runs of the metrics fold on concrete scraper output, including the one where an
    absolute comments count is followed by a comment-fetching line. Each line's effects
    are worked out on their own, then combined through the counter closed forms. */
module Scenarios {
  import opened Wrappers
  import opened Text
  import opened Patterns
  import opened Telemetry
  import Counter
  import opened Supervisor

  /** `p` cannot occur in `s` because one of its characters does not. */
  lemma Lacks(s: String, p: String, j: nat)
    requires j < |p| && p[j] !in s
    ensures !Contains(s, p)
  {
    ContainsChars(s, p);
  }

  // ---------------------------------------------------------------------------------------
  // Single lines

  // Each worked line has a lemma holding only character-level facts about it, and one
  // turning those facts into the line's effects through the general lemmas.

  lemma ImagesSevenChars(line: String)
    requires line == "Images: 7\n"
    ensures TriggerMatch(line, ImagesPattern, 0, 8, 9) && DigitsValue(line[8..9]) == 7
    ensures VideosPattern.trigger[0] !in line
  {
    assert OccursAt(line, "Images:", 0);
    assert line[8..9] == "7";
  }

  lemma ImagesSeven(line: String)
    requires line == "Images: 7\n"
    ensures ImagesEffect(line).reset == Some(7)
    ensures VideosEffect(line).reset == None
  {
    ImagesSevenChars(line);
    AbsoluteAtStart(line, ImagesPattern, 8, 9);
    NoTrigger(line, VideosPattern, 0);
  }

  lemma VideosOneChars(line: String)
    requires line == "Videos: 1\n"
    ensures TriggerMatch(line, VideosPattern, 0, 8, 9) && DigitsValue(line[8..9]) == 1
  {
    assert OccursAt(line, "Videos:", 0);
    assert line[8..9] == "1";
  }

  lemma VideosOne(line: String)
    requires line == "Videos: 1\n"
    ensures VideosEffect(line).reset == Some(1)
  {
    VideosOneChars(line);
    AbsoluteAtStart(line, VideosPattern, 8, 9);
  }

  lemma CommentsFiveChars(line: String)
    requires line == "Comments: 5\n"
    ensures TriggerMatch(line, CommentsPattern, 0, 10, 11) && DigitsValue(line[10..11]) == 5
  {
    assert OccursAt(line, "Comments:", 0);
    assert line[10..11] == "5";
  }

  lemma CommentsFiveLacksFetching(line: String)
    requires line == "Comments: 5\n"
    ensures !Contains(line, "Fetching comments for:")
  {
    Lacks(line, "Fetching comments for:", 0);
  }

  lemma CommentsFive(line: String)
    requires line == "Comments: 5\n"
    ensures CommentsEffect(line) == Counter.Effect(Some(5), 0)
  {
    CommentsFiveChars(line);
    CommentsFiveLacksFetching(line);
    AbsoluteAtStart(line, CommentsPattern, 10, 11);
  }

  lemma FetchingChars(line: String)
    requires line == "Fetching comments for: abc\n"
    ensures Contains(line, "Fetching comments for:")
  {
    assert line[..22] == "Fetching comments for:";
    assert OccursAt(line, "Fetching comments for:", 0);
  }

  lemma FetchingLacksCapitalC(line: String)
    requires line == "Fetching comments for: abc\n"
    ensures CommentsPattern.trigger[0] !in line
  {
    assert CommentsPattern.trigger[0] == 'C';
    assert forall k | 0 <= k < |line| :: line[k] != 'C';
  }

  lemma FetchingLine(line: String)
    requires line == "Fetching comments for: abc\n"
    ensures CommentsEffect(line) == Counter.Effect(None, 1)
  {
    FetchingChars(line);
    FetchingLacksCapitalC(line);
    NoTrigger(line, CommentsPattern, 0);
  }

  /** A line lacking a character of a pattern's trigger has no value for it. */
  lemma NoTrigger(line: String, p: TriggerPattern, j: nat)
    requires j < |p.trigger| && p.trigger[j] !in line
    ensures AbsoluteOf(line, p) == None
    ensures TriggerValue(line, p) == None
  {
    Lacks(line, p.trigger, j);
    TriggerNeedsLiteral(line, p);
  }

  lemma ProgressTenChars(line: String)
    requires line == "Progress: 10/100 posts\n"
    ensures Contains(line, "Progress:") && Contains(line, "/")
  {
    assert OccursAt(line, "Progress:", 0);
    assert OccursAt(line, "/", 12);
  }

  lemma ProgressTenLacksCapitalS(line: String)
    requires line == "Progress: 10/100 posts\n"
    ensures SavedPattern.trigger[0] !in line
  {
    assert SavedPattern.trigger[0] == 'S';
    assert forall k | 0 <= k < |line| :: line[k] != 'S';
  }

  lemma ProgressTenMatch(line: String)
    requires line == "Progress: 10/100 posts\n"
    ensures RatioMatch(line, RatioHit(10, 12, 12, 13, 16))
    ensures DigitsValue(line[10..12]) == 10 && DigitsValue(line[13..16]) == 100
  {
    assert line[10..12] == "10";
    assert line[13..16] == "100";
    assert DigitsValue("10") == 10;
    assert DigitsValue("100") == 100;
  }

  lemma ProgressTenNoEarlier(line: String)
    requires line == "Progress: 10/100 posts\n"
    ensures forall h: RatioHit | h.start < 10 :: !RatioMatch(line, h)
  {
    var head := line[..10];
    assert head == "Progress: ";
    assert forall c | c in head :: !IsDigit(c);
    forall h: RatioHit | h.start < 10 ensures !RatioMatch(line, h) {
      RatioStartsOnDigit(line, h);
      assert head[h.start] == line[h.start];
      assert head[h.start] in head;
    }
  }

  lemma ProgressTenRatio(line: String)
    requires line == "Progress: 10/100 posts\n"
    ensures RatioValues(line) == Some((10, 100))
  {
    ProgressTenMatch(line);
    ProgressTenNoEarlier(line);
    RatioValuesIsLeftmost(line, RatioHit(10, 12, 12, 13, 16));
  }

  lemma ProgressTen(line: String)
    requires line == "Progress: 10/100 posts\n"
    ensures PostsEffect(line) == Counter.Effect(Some(10), 0)
  {
    ProgressTenChars(line);
    ProgressTenLacksCapitalS(line);
    ProgressTenRatio(line);
    NoTrigger(line, SavedPattern, 0);
    ProgressSetsPosts(line, 10, 100);
  }

  lemma CommentsWithoutNumberChars(line: String)
    requires line == "Comments: notanumber\n"
    ensures forall k | 0 <= k < |line| :: !IsDigit(line[k])
    ensures !Contains(line, "Fetching comments for:")
  {
    Lacks(line, "Fetching comments for:", 0);
  }

  /** A comments trigger without a number changes nothing: the line is ignored. */
  lemma CommentsWithoutNumber(line: String)
    requires line == "Comments: notanumber\n"
    ensures Step(Initial, line) == Initial
  {
    CommentsWithoutNumberChars(line);
    DigitlessLine(Initial, line);
  }

  // ---------------------------------------------------------------------------------------
  // Runs

  /** Images and videos are overwritten in arrival order: "Images: 3", "Videos: 1",
      "Images: 7" leave 7 images and 1 video. */
  lemma MediaOverwrite(l0: String, l1: String, l2: String)
    requires l0 == "Images: 3\n" && l1 == "Videos: 1\n" && l2 == "Images: 7\n"
    ensures Fold(Initial, [l0, l1, l2]).images == 7
    ensures Fold(Initial, [l0, l1, l2]).videos == 1
  {
    LastImagesWin(l0, l1, l2);
    LastVideosWin(l0, l1, l2);
  }

  /** The image half: the last "Images:" line decides. */
  lemma LastImagesWin(l0: String, l1: String, l2: String)
    requires l0 == "Images: 3\n" && l1 == "Videos: 1\n" && l2 == "Images: 7\n"
    ensures Fold(Initial, [l0, l1, l2]).images == 7
  {
    ImagesSeven(l2);
    LastImagesReport(Initial, [l0, l1, l2], 2);
  }

  /** The video half: the only "Videos:" line decides, whatever image lines follow. */
  lemma LastVideosWin(l0: String, l1: String, l2: String)
    requires l0 == "Images: 3\n" && l1 == "Videos: 1\n" && l2 == "Images: 7\n"
    ensures Fold(Initial, [l0, l1, l2]).videos == 1
  {
    ImagesSeven(l2);
    VideosOne(l1);
    LastVideosReport(Initial, [l0, l1, l2], 1);
  }

  /** An absolute comments count does not stop the per-line increments: "Comments: 5"
      followed by "Fetching comments for: abc" leaves 6, not 5. */
  lemma IncrementAfterAbsolute(l0: String, l1: String)
    requires l0 == "Comments: 5\n" && l1 == "Fetching comments for: abc\n"
    ensures Fold(Initial, [l0, l1]).comments == 6
  {
    var lines := [l0, l1];
    CommentsFive(l0);
    FetchingLine(l1);
    FinalRunningCounts(Initial, lines);
    var es := Effects(CommentsEffect, lines);
    Counter.LastResetWins(es, 0);
    assert es[0..] == es && es[..1][..0] == [];
  }

  /** Two progress lines: the posts count is the done count of the last one, the job
      succeeds with exit code 0, and the panel holds both lines. */
  lemma ProgressRun(l0: String, l1: String)
    requires l0 == "Progress: 5/100 posts\n" && l1 == "Progress: 10/100 posts\n"
    ensures Fold(Initial, [l0, l1]).posts == 10
    ensures Finish(0, [l0, l1]).status == Succeeded
    ensures Finish(0, [l0, l1]).liveTail == [l0, l1]
  {
    var lines := [l0, l1];
    ProgressTen(l1);
    FinalRunningCounts(Initial, lines);
    var es := Effects(PostsEffect, lines);
    Counter.LastResetWins(es, 1);
    assert es[1..] == [es[1]] && [es[1]][..0] == [];
  }

  /** A failed job shows exactly the last 30 lines, in order, whatever their content. */
  lemma FailureShowsLastThirty(lines: seq<String>, exitCode: int)
    requires |lines| == 40 && exitCode == 2
    ensures Finish(exitCode, lines).status == Failed
    ensures Finish(exitCode, lines).errorTail == Some(lines[10..])
  {
    var t := Finish(exitCode, lines).errorTail.value;
    assert lines[..10] + t == lines;
    assert t == lines[10..];
  }
}

=== FILE: stats.dfy ===
/** The metadata shaping of the subreddit statistics fetcher, with each HTTP exchange an
    input: the status code and the decoded JSON body (or the lack of one). */
module SubredditStats {
  import opened Wrappers
  import opened Text

  /** A JSON object member as `dict.get` sees it: absent, present but `null`, or a value. */
  datatype Field<T> = Absent | Null | Present(value: T)

  /** `d.get(k)`: the value, `None` for an absent or null member alike. */
  function Get<T>(f: Field<T>): (r: Option<T>)
    ensures r.Some? <==> f.Present?
    ensures r.Some? ==> r.value == f.value
  {
    if f.Present? then Some(f.value) else None
  }

  /** `d.get(k, default)`: the default only for an absent member; a null one stays `None`. */
  function GetOr<T>(f: Field<T>, default: T): (r: Option<T>)
    ensures f.Absent? ==> r == Some(default)
    ensures f.Null? ==> r == None
    ensures f.Present? ==> r == Some(f.value)
  {
    match f
    case Absent => Some(default)
    case Null => None
    case Present(v) => Some(v)
  }

  /** One HTTP exchange: the request itself failed, or a status with a body that decoded to
      the expected shape (`Some`) or did not (`None`; the code's handler catches the error). */
  datatype Exchange<T> = RequestFailed | Response(status: int, body: Option<T>)

  /** The exchange yielded a usable body: status 200 and a body of the expected shape. */
  predicate Ok<T>(x: Exchange<T>) {
    x.Response? && x.status == 200 && x.body.Some?
  }

  // ---------------------------------------------------------------------------------------
  // Asset URLs

  /** `value.split('?')[0]`: the URL without its query string. */
  function StripQuery(url: String): (r: String)
    ensures '?' !in r
    ensures r <= url
    ensures '?' !in url ==> r == url
    ensures |url| > 0 && url[0] == '?' ==> r == []
    ensures |r| < |url| ==> url[|r|] == '?'
  {
    BeforeFirst(url, '?')
  }

  /** Stripping twice strips nothing more. */
  lemma StripQueryIdempotent(url: String)
    ensures StripQuery(StripQuery(url)) == StripQuery(url)
  {
  }

  /** An icon, banner or community-icon member: `None` when absent, null or empty,
      otherwise the value without its query string (which may be empty). */
  function AssetUrl(f: Field<String>): (r: Option<String>)
    ensures r.None? <==> f.Absent? || f.Null? || f == Present([])
    ensures r.Some? ==> '?' !in r.value && r.value <= f.value
    ensures r.Some? && '?' !in f.value ==> r.value == f.value
    ensures r.Some? && f.value[0] == '?' ==> r.value == []
  {
    match f
    case Present(v) => if v == [] then None else Some(StripQuery(v))
    case _ => None
  }

  // ---------------------------------------------------------------------------------------
  // About

  /** The members of the `data` object of `about.json` the code reads. */
  datatype AboutData = AboutData(
    displayName: Field<String>, title: Field<String>, publicDescription: Field<String>,
    subscribers: Field<int>, accountsActive: Field<int>, createdUtc: Field<int>,
    over18: Field<bool>, subredditType: Field<String>, lang: Field<String>,
    iconImg: Field<String>, bannerImg: Field<String>, headerImg: Field<String>,
    communityIcon: Field<String>, wikiEnabled: Field<bool>, spoilersEnabled: Field<bool>,
    allowVideos: Field<bool>, allowImages: Field<bool>, allowPolls: Field<bool>)

  /** The dictionary `get_subreddit_about` returns; `createdUtc` is the epoch second that
      the code renders as an ISO timestamp. */
  datatype About = About(
    name: Option<String>, title: Option<String>, description: Option<String>,
    subscribers: Option<int>, activeUsers: Option<int>, createdUtc: int,
    over18: Option<bool>, subredditType: Option<String>, lang: Option<String>,
    iconUrl: Option<String>, bannerUrl: Option<String>, headerUrl: Option<String>,
    communityIcon: Option<String>, wikiEnabled: Option<bool>, spoilersEnabled: Option<bool>,
    allowVideos: Option<bool>, allowImages: Option<bool>, allowPolls: Option<bool>)

  /** `get_subreddit_about`: `None` on a failed request, a status other than 200, a body
      without a `data` object, or a null creation time (which makes the timestamp
      conversion raise); otherwise the shaped metadata. */
  function GetAbout(x: Exchange<AboutData>): (r: Option<About>)
    ensures !Ok(x) ==> r.None?
    ensures Ok(x) ==> (r.None? <==> x.body.value.createdUtc.Null?)
    ensures r.Some? ==> var d := x.body.value;
      && r.value.name == Get(d.displayName)
      && r.value.title == Get(d.title)
      && r.value.description == Get(d.publicDescription)
      && r.value.subredditType == Get(d.subredditType)
      && r.value.lang == Get(d.lang)
      && r.value.subscribers == GetOr(d.subscribers, 0)
      && r.value.activeUsers == GetOr(d.accountsActive, 0)
      && r.value.over18 == GetOr(d.over18, false)
      && r.value.createdUtc == (if d.createdUtc.Present? then d.createdUtc.value else 0)
      && r.value.iconUrl == AssetUrl(d.iconImg)
      && r.value.bannerUrl == AssetUrl(d.bannerImg)
      && r.value.communityIcon == AssetUrl(d.communityIcon)
      && r.value.headerUrl == Get(d.headerImg)
      && r.value.wikiEnabled == GetOr(d.wikiEnabled, false)
      && r.value.spoilersEnabled == GetOr(d.spoilersEnabled, false)
      && r.value.allowVideos == GetOr(d.allowVideos, false)
      && r.value.allowImages == GetOr(d.allowImages, false)
      && r.value.allowPolls == GetOr(d.allowPolls, false)
  {
    if !Ok(x) then None
    else
      var d := x.body.value;
      match GetOr(d.createdUtc, 0)
      case None => None
      case Some(created) =>
        Some(About(
          Get(d.displayName), Get(d.title), Get(d.publicDescription),
          GetOr(d.subscribers, 0), GetOr(d.accountsActive, 0), created,
          GetOr(d.over18, false), Get(d.subredditType), Get(d.lang),
          AssetUrl(d.iconImg), AssetUrl(d.bannerImg), Get(d.headerImg),
          AssetUrl(d.communityIcon), GetOr(d.wikiEnabled, false), GetOr(d.spoilersEnabled, false),
          GetOr(d.allowVideos, false), GetOr(d.allowImages, false), GetOr(d.allowPolls, false)))
  }

  /** The header image is the one asset passed through untouched, query string and all. */
  lemma HeaderKeepsQuery(x: Exchange<AboutData>, url: String)
    requires Ok(x) && !x.body.value.createdUtc.Null? && x.body.value.headerImg == Present(url)
    ensures GetAbout(x).Some? && GetAbout(x).value.headerUrl == Some(url)
  {
  }

  // ---------------------------------------------------------------------------------------
  // Rules, moderators, flairs

  datatype RuleData = RuleData(shortName: Field<String>, description: Field<String>,
                               priority: Field<int>, kind: Field<String>, createdUtc: Field<int>)

  datatype Rule = Rule(shortName: Option<String>, description: Option<String>,
                       priority: Option<int>, kind: Option<String>, createdUtc: int)

  /** A rule's creation time, `None` when it is null (the conversion raises). */
  function RuleCreated(d: RuleData): Option<int> {
    GetOr(d.createdUtc, 0)
  }

  function ShapeRule(d: RuleData): Rule
    requires RuleCreated(d).Some?
  {
    Rule(Get(d.shortName), Get(d.description), Get(d.priority), Get(d.kind), RuleCreated(d).value)
  }

  /** `get_subreddit_rules`; the body is the `rules` member of the response. A failed request,
      a non-200 status, an unusable body, a null `rules` member or any rule with a null
      creation time give no rules (the code returns `[]` or catches the error); an absent
      member gives none too; otherwise one rule per entry, in order. */
  function GetRules(x: Exchange<Field<seq<RuleData>>>): (r: seq<Rule>)
    ensures !Ok(x) ==> r == []
    ensures Ok(x) && x.body.value.Present? && (forall i | 0 <= i < |x.body.value.value| :: RuleCreated(x.body.value.value[i]).Some?)
            ==> |r| == |x.body.value.value| && forall i | 0 <= i < |r| :: r[i] == ShapeRule(x.body.value.value[i])
    ensures Ok(x) && x.body.value.Present? && (exists i | 0 <= i < |x.body.value.value| :: RuleCreated(x.body.value.value[i]).None?)
            ==> r == []
    ensures Ok(x) && !x.body.value.Present? ==> r == []
  {
    if !Ok(x) then []
    else match x.body.value
      case Present(items) =>
        if forall i | 0 <= i < |items| :: RuleCreated(items[i]).Some?
        then seq(|items|, i requires 0 <= i < |items| => ShapeRule(items[i]))
        else []
      case _ => []
  }

  datatype ModData = ModData(name: Field<String>, permissions: Field<seq<String>>, date: Field<int>)

  datatype Mod = Mod(name: Option<String>, permissions: Option<seq<String>>, addedUtc: Option<int>)

  /** One moderator: permissions default to none when absent; the date shows only when it
      is truthy (present and non-zero). */
  function ShapeMod(d: ModData): (r: Mod)
    ensures r.permissions == GetOr(d.permissions, [])
    ensures r.addedUtc.Some? <==> d.date.Present? && d.date.value != 0
    ensures r.addedUtc.Some? ==> r.addedUtc.value == d.date.value
  {
    Mod(Get(d.name), GetOr(d.permissions, []), if d.date.Present? && d.date.value != 0 then Some(d.date.value) else None)
  }

  /** `get_subreddit_moderators`; the body is the `data` member of the response, holding the
      `children` member. Moderators are listed in order when both members are present; an
      absent member means no moderators; a null one, a failed request or a non-200 status
      gives none as well. */
  function GetMods(x: Exchange<Field<Field<seq<ModData>>>>): (r: seq<Mod>)
    ensures !Ok(x) ==> r == []
    ensures Ok(x) && x.body.value.Present? && x.body.value.value.Present?
            ==> var items := x.body.value.value.value;
                |r| == |items| && forall i | 0 <= i < |r| :: r[i] == ShapeMod(items[i])
    ensures Ok(x) && !(x.body.value.Present? && x.body.value.value.Present?) ==> r == []
  {
    if !Ok(x) then []
    else match x.body.value
      case Present(Present(items)) => seq(|items|, i requires 0 <= i < |items| => ShapeMod(items[i]))
      case _ => []
  }

  datatype FlairData = FlairData(text: Field<String>, id: Field<String>, backgroundColor: Field<String>,
                                 textColor: Field<String>, kind: Field<String>)

  datatype Flair = Flair(text: Option<String>, id: Option<String>, backgroundColor: Option<String>,
                         textColor: Option<String>, kind: Option<String>)

  function ShapeFlair(d: FlairData): Flair {
    Flair(Get(d.text), Get(d.id), Get(d.backgroundColor), Get(d.textColor), Get(d.kind))
  }

  /** `get_subreddit_flairs`; the body is the response's top-level list. */
  function GetFlairs(x: Exchange<seq<FlairData>>): (r: seq<Flair>)
    ensures !Ok(x) ==> r == []
    ensures Ok(x) ==> |r| == |x.body.value| && forall i | 0 <= i < |r| :: r[i] == ShapeFlair(x.body.value[i])
  {
    if !Ok(x) then [] else seq(|x.body.value|, i requires 0 <= i < |x.body.value| => ShapeFlair(x.body.value[i]))
  }

  // ---------------------------------------------------------------------------------------
  // Full statistics

  datatype Stats = Stats(about: About, rules: seq<Rule>, rulesCount: nat, moderators: seq<Mod>,
                         moderatorCount: nat, flairs: seq<Flair>, flairCount: nat)

  /** What `get_full_subreddit_stats` does: returns `None` when the metadata could not be
      fetched, raises when the summary it prints meets a null subscriber or active-user
      count (the thousands-separator format rejects `None`), and otherwise returns the
      merged statistics. */
  datatype StatsOutcome = NoStats | SummaryRaises | Collected(stats: Stats)

  function FullStats(about: Exchange<AboutData>, rules: Exchange<Field<seq<RuleData>>>,
                     mods: Exchange<Field<Field<seq<ModData>>>>, flairs: Exchange<seq<FlairData>>): (r: StatsOutcome)
    ensures r.NoStats? <==> GetAbout(about).None?
    ensures !Ok(about) ==> r.NoStats?
    ensures r.SummaryRaises? <==>
              (GetAbout(about).Some? &&
               (GetAbout(about).value.subscribers.None? || GetAbout(about).value.activeUsers.None?))
    ensures r.Collected? ==>
              (&& Some(r.stats.about) == GetAbout(about)
               && r.stats.rules == GetRules(rules) && r.stats.rulesCount == |r.stats.rules|
               && r.stats.moderators == GetMods(mods) && r.stats.moderatorCount == |r.stats.moderators|
               && r.stats.flairs == GetFlairs(flairs) && r.stats.flairCount == |r.stats.flairs|)
  {
    match GetAbout(about)
    case None => NoStats
    case Some(a) =>
      var rs := GetRules(rules);
      var ms := GetMods(mods);
      var fs := GetFlairs(flairs);
      if a.subscribers.None? || a.activeUsers.None? then SummaryRaises
      else Collected(Stats(a, rs, |rs|, ms, |ms|, fs, |fs|))
  }
}

=== FILE: supervisor.dfy ===
/** The scrape job around the metrics fold: the command line built from the form, the
    output stream cut into lines the way `readline` cuts it, the live and failure tails,
    the rate and progress figures, the exit classification, and the streaming loop that
    ties them together. Process spawning, waiting and the clock are inputs. */
module Supervisor {
  import opened Wrappers
  import opened Text
  import opened Telemetry

  // ---------------------------------------------------------------------------------------
  // Command line

  datatype Mode = Full | History

  function ModeName(m: Mode): String {
    match m
    case Full => "full"
    case History => "history"
  }

  /** The form inputs of the "Start New Scrape" panel. */
  datatype JobForm = JobForm(target: String, isUser: bool, limit: nat, mode: Mode, noMedia: bool, noComments: bool)

  /** The optional switches, in the order the command appends them. */
  const Switches: seq<String> := ["--user", "--no-media", "--no-comments"]

  /** Whether the form sets the switch `Switches[k]`. */
  function SwitchOn(form: JobForm, k: nat): bool
    requires k < |Switches|
  {
    if k == 0 then form.isUser else if k == 1 then form.noMedia else form.noComments
  }

  /** The position of `arg` among the optional switches. */
  function SwitchRank(arg: String): nat {
    if arg == Switches[0] then 0 else if arg == Switches[1] then 1 else if arg == Switches[2] then 2 else 3
  }

  /** The fixed seven-word head of every command. */
  function CommandHead(form: JobForm): seq<String> {
    ["python", "main.py", form.target, "--mode", ModeName(form.mode), "--limit", NatToString(form.limit)]
  }

  /** The switches a form sets: each one it sets, once, in the fixed order. */
  function SwitchesFor(form: JobForm): (t: seq<String>)
    ensures forall i | 0 <= i < |t| :: t[i] in Switches
    ensures forall k | 0 <= k < |Switches| :: Switches[k] in t <==> SwitchOn(form, k)
    ensures forall i, j | 0 <= i < j < |t| :: SwitchRank(t[i]) < SwitchRank(t[j])
  {
    var user := if form.isUser then ["--user"] else [];
    var media := if form.noMedia then ["--no-media"] else [];
    var comments := if form.noComments then ["--no-comments"] else [];
    user + media + comments
  }

  /** The scraper command for a form, or `None` when the target name is empty (the handler
      shows an error and starts nothing). After the fixed head come exactly the switches the
      form sets, each once, in the fixed order user, no-media, no-comments. */
  function BuildCommand(form: JobForm): (r: Option<seq<String>>)
    ensures r.None? <==> form.target == []
    ensures r.Some? ==> |r.value| >= 7 && r.value[..7] == CommandHead(form) && r.value[7..] == SwitchesFor(form)
  {
    if form.target == [] then None
    else
      var cmd := CommandHead(form) + SwitchesFor(form);
      assert cmd[..7] == CommandHead(form);
      assert cmd[7..] == SwitchesFor(form);
      Some(cmd)
  }

  /** The spawned vector `["python", "-u"] + cmd[1:]`: the interpreter word is replaced by
      the interpreter with unbuffered output, so the vector grows by one. */
  function Unbuffered(cmd: seq<String>): (r: seq<String>)
    ensures |r| >= 2 && r[..2] == ["python", "-u"]
    ensures |cmd| > 0 ==> |r| == |cmd| + 1 && r[2..] == cmd[1..]
    ensures |cmd| == 0 ==> |r| == 2
  {
    ["python", "-u"] + (if |cmd| > 0 then cmd[1..] else [])
  }

  /** What is actually spawned for a form with a target: the unbuffered interpreter runs
      `main.py` on the target, with the form's mode and limit and the switches that follow. */
  lemma SpawnedVector(form: JobForm)
    requires form.target != []
    ensures var spawned := Unbuffered(BuildCommand(form).value);
            && |spawned| == |BuildCommand(form).value| + 1
            && spawned[..8] == ["python", "-u", "main.py", form.target, "--mode", ModeName(form.mode), "--limit", NatToString(form.limit)]
            && spawned[8..] == BuildCommand(form).value[7..]
  {
    var cmd := BuildCommand(form).value;
    var spawned := Unbuffered(cmd);
    assert spawned == ["python", "-u"] + cmd[1..];
    assert spawned[..8] == ["python", "-u"] + cmd[1..7];
    assert cmd[1..7] == cmd[..7][1..];
  }

  // ---------------------------------------------------------------------------------------
  // Reading the stream

  /** The end (exclusive) of the line starting at `i`: just past the first line feed at or
      after `i`, or the end of the stream. */
  function LineEnd(s: String, i: nat): (e: nat)
    requires i < |s|
    ensures i < e <= |s|
    ensures forall j | i <= j < e - 1 :: s[j] != '\n'
    ensures e < |s| ==> s[e - 1] == '\n'
    decreases |s| - i
  {
    if s[i] == '\n' || i + 1 == |s| then i + 1 else LineEnd(s, i + 1)
  }

  /** The lines `iter(process.stdout.readline, b'')` yields from a stream: every line keeps
      its line feed, only the last may lack one, and none is empty (an empty read ends the
      loop). */
  function ReadLines(s: String): (lines: seq<String>)
    ensures Concat(lines) == s
    ensures WellFormedLines(lines)
    decreases |s|
  {
    if |s| == 0 then []
    else
      var e := LineEnd(s, 0);
      var rest := ReadLines(s[e..]);
      ConsLine(s[..e], rest);
      assert s == s[..e] + s[e..];
      ConsWellFormed(s[..e], rest, e < |s|);
      [s[..e]] + rest
  }

  /** Every line is non-empty, only a final line may lack its line feed, and no line feed
      occurs before a line's end. */
  ghost predicate WellFormedLines(lines: seq<String>) {
    && (forall k | 0 <= k < |lines| :: |lines[k]| > 0)
    && (forall k | 0 <= k < |lines| - 1 :: lines[k][|lines[k]| - 1] == '\n')
    && (forall k, j | 0 <= k < |lines| && 0 <= j < |lines[k]| - 1 :: lines[k][j] != '\n')
  }

  /** A line read in front of well-formed lines keeps them well formed. */
  lemma ConsWellFormed(line: String, rest: seq<String>, more: bool)
    requires |line| > 0 && forall j | 0 <= j < |line| - 1 :: line[j] != '\n'
    requires more ==> line[|line| - 1] == '\n'
    requires !more ==> rest == []
    requires WellFormedLines(rest)
    ensures WellFormedLines([line] + rest)
  {
    var all := [line] + rest;
    forall k | 0 <= k < |all| ensures |all[k]| > 0 {
      if k > 0 { assert all[k] == rest[k - 1]; }
    }
    forall k | 0 <= k < |all| - 1 ensures all[k][|all[k]| - 1] == '\n' {
      if k > 0 { assert all[k] == rest[k - 1]; }
    }
    forall k, j | 0 <= k < |all| && 0 <= j < |all[k]| - 1 ensures all[k][j] != '\n' {
      if k > 0 { assert all[k] == rest[k - 1]; }
    }
  }

  /** Putting one line in front of others makes the joined text grow by that line. */
  lemma ConsLine(line: String, rest: seq<String>)
    ensures Concat([line] + rest) == line + Concat(rest)
  {
    ConcatAppend([line], rest);
    assert [line][..0] == [];
    assert Concat([line]) == Concat([]) + line;
  }

  // ---------------------------------------------------------------------------------------
  // Tails, rate, progress, exit

  /** Python's `lines[-n:]` for `n > 0`: the last `n` lines, or all of them when there are
      fewer, in arrival order. */
  function Tail<T>(lines: seq<T>, n: nat): (r: seq<T>)
    requires n > 0
    ensures |r| == if |lines| < n then |lines| else n
    ensures lines == lines[..|lines| - |r|] + r
  {
    if |lines| < n then lines else lines[|lines| - n..]
  }

  /** The live output panel shows the joined tail, a suffix of everything read so far. */
  lemma DisplayIsStreamSuffix(s: String, n: nat)
    requires n > 0
    ensures var shown := Concat(Tail(ReadLines(s), n));
            |shown| <= |s| && shown == s[|s| - |shown|..]
  {
    var lines := ReadLines(s);
    var t := Tail(lines, n);
    ConcatAppend(lines[..|lines| - |t|], t);
    assert lines[..|lines| - |t|] + t == lines;
  }

  const LiveTailLines: nat := 15
  const FailureTailLines: nat := 30

  /** Posts per second, 0 when no time has passed. */
  function Rate(posts: nat, elapsed: real): (r: real)
    ensures r >= 0.0
    ensures elapsed <= 0.0 ==> r == 0.0
    ensures elapsed > 0.0 ==> r * elapsed == posts as real
  {
    if elapsed > 0.0 then posts as real / elapsed else 0.0
  }

  /** The progress bar position a progress line moves to: `min(done / total, 1.0)`; with a
      zero total the division raises, the exception is swallowed and the bar stays put. */
  function ProgressFraction(done: nat, total: nat): (r: Option<real>)
    ensures r.None? <==> total == 0
    ensures r.Some? ==> 0.0 <= r.value <= 1.0
    ensures r.Some? ==> (r.value == 1.0 <==> done >= total)
    ensures r.Some? && done < total ==> r.value * total as real == done as real
  {
    if total == 0 then None
    else
      var ratio := done as real / total as real;
      Some(if ratio < 1.0 then ratio else 1.0)
  }

  datatype Status = Succeeded | Failed

  /** The end of a job: its exit code and status, the 15-line panel left on screen, and the
      30-line error output shown only on failure. */
  datatype Outcome = Outcome(exitCode: int, status: Status, liveTail: seq<String>, errorTail: Option<seq<String>>)

  function Finish(exitCode: int, lines: seq<String>): (o: Outcome)
    ensures o.exitCode == exitCode
    ensures o.status == Succeeded <==> exitCode == 0
    ensures o.liveTail == Tail(lines, LiveTailLines)
    ensures o.errorTail.Some? <==> o.status == Failed
    ensures o.errorTail.Some? ==> |o.errorTail.value| == (if |lines| < 30 then |lines| else 30)
    ensures o.errorTail.Some? ==> lines == lines[..|lines| - |o.errorTail.value|] + o.errorTail.value
  {
    if exitCode == 0 then Outcome(exitCode, Succeeded, Tail(lines, LiveTailLines), None)
    else Outcome(exitCode, Failed, Tail(lines, LiveTailLines), Some(Tail(lines, FailureTailLines)))
  }

  // ---------------------------------------------------------------------------------------
  // The streaming loop

  /** What the page shows after one line: the counters, the rate, the bar position the line
      set (if it set one) and the output panel. */
  datatype Snapshot = Snapshot(metrics: Metrics, rate: real, progress: Option<real>, tail: seq<String>)

  function LineProgress(line: String): Option<real> {
    match ProgressOf(line)
    case Some(pair) => ProgressFraction(pair.0, pair.1)
    case None => None
  }

  /** Snapshot `snap` is what the page shows after line `k` of `lines`: the counters are
      the fold of the lines up to and including `k`, the panel the last 15 of those lines,
      the bar position the one line `k` set, and the rate the posts so far per second
      elapsed at line `k`. */
  ghost predicate ShowsLine(lines: seq<String>, clock: nat -> real, k: nat, snap: Snapshot)
    requires k < |lines|
  {
    && snap.metrics == Fold(Initial, lines[..k + 1])
    && snap.tail == Tail(lines[..k + 1], LiveTailLines)
    && snap.progress == LineProgress(lines[k])
    && snap.rate == Rate(snap.metrics.posts, clock(k))
  }

  /** The snapshot for line `i` built from the counters before it shows that line. */
  lemma NextSnapshotShows(lines: seq<String>, clock: nat -> real, i: nat, before: Metrics, snap: Snapshot)
    requires i < |lines| && before == Fold(Initial, lines[..i])
    requires snap.metrics == Step(before, lines[i]) && snap.rate == Rate(snap.metrics.posts, clock(i))
    requires snap.progress == LineProgress(lines[i]) && snap.tail == Tail(lines[..i + 1], LiveTailLines)
    ensures ShowsLine(lines, clock, i, snap)
  {
    FoldPrefix(lines, i);
  }

  /** The counters after line `i` are those before it stepped by that line. */
  lemma FoldPrefix(lines: seq<String>, i: nat)
    requires i < |lines|
    ensures Fold(Initial, lines[..i + 1]) == Step(Fold(Initial, lines[..i]), lines[i])
  {
    FoldSnoc(Initial, lines[..i], lines[i]);
    assert lines[..i + 1] == lines[..i] + [lines[i]];
  }

  /** Appending the snapshot of the next line keeps every snapshot faithful. */
  lemma AppendShown(lines: seq<String>, clock: nat -> real, snapshots: seq<Snapshot>, snap: Snapshot)
    requires |snapshots| < |lines|
    requires forall k | 0 <= k < |snapshots| :: ShowsLine(lines, clock, k, snapshots[k])
    requires ShowsLine(lines, clock, |snapshots|, snap)
    ensures forall k | 0 <= k < |snapshots| + 1 :: ShowsLine(lines, clock, k, (snapshots + [snap])[k])
  {
    forall k | 0 <= k < |snapshots| + 1 ensures ShowsLine(lines, clock, k, (snapshots + [snap])[k]) {
      if k < |snapshots| {
        assert (snapshots + [snap])[k] == snapshots[k];
      }
    }
  }

  /** The handler's per-line loop over lines already split: one snapshot per line, in
      arrival order, each reflecting exactly the lines read so far. */
  method ShowLines(lines: seq<String>, clock: nat -> real) returns (snapshots: seq<Snapshot>, final: Metrics)
    ensures |snapshots| == |lines|
    ensures forall k | 0 <= k < |snapshots| :: ShowsLine(lines, clock, k, snapshots[k])
    ensures final == Fold(Initial, lines)
  {
    var m := Initial;
    snapshots := [];
    var i := 0;
    while i < |lines|
      invariant 0 <= i <= |lines|
      invariant |snapshots| == i
      invariant m == Fold(Initial, lines[..i])
      invariant forall k | 0 <= k < i :: ShowsLine(lines, clock, k, snapshots[k])
    {
      var next := Step(m, lines[i]);
      var elapsed := clock(i);
      var rate := Rate(next.posts, elapsed);
      var snap := Snapshot(next, rate, LineProgress(lines[i]), Tail(lines[..i + 1], LiveTailLines));
      NextSnapshotShows(lines, clock, i, m, snap);
      AppendShown(lines, clock, snapshots, snap);
      snapshots := snapshots + [snap];
      m := next;
      i := i + 1;
    }
    assert lines[..i] == lines;
    final := m;
  }

  /** Runs the handler over the scraper's output `stream`; `clock(k)` is the elapsed time
      when line `k` is handled and `exitCode` what the process returns. One snapshot per
      line, then one outcome. */
  method Supervise(stream: String, exitCode: int, clock: nat -> real)
    returns (snapshots: seq<Snapshot>, final: Metrics, outcome: Outcome)
    ensures |snapshots| == |ReadLines(stream)|
    ensures forall k | 0 <= k < |snapshots| :: ShowsLine(ReadLines(stream), clock, k, snapshots[k])
    ensures final == Fold(Initial, ReadLines(stream))
    ensures outcome == Finish(exitCode, ReadLines(stream))
  {
    var lines := ReadLines(stream);
    snapshots, final := ShowLines(lines, clock);
    outcome := Finish(exitCode, lines);
  }
}

=== FILE: telemetry.dfy ===
/** The per-line metrics update of the "Start Scraping" handler and its fold over the
    scraper's output lines.

    Each check is an independent `if`, tried in the fixed order Progress, Saved, Comments,
    Fetching, Images, Videos, Found, so one line can update several counters; a trigger
    whose number does not parse leaves its counter alone. */
module Telemetry {
  import opened Wrappers
  import opened Text
  import opened Patterns
  import Counter

  datatype Metrics = Metrics(posts: nat, comments: nat, images: nat, videos: nat)

  const Initial := Metrics(0, 0, 0, 0)

  /** The progress pair a line reports: a line containing "Progress:" and "/" whose ratio
      search succeeds. */
  function ProgressOf(line: String): (r: Option<(nat, nat)>)
    ensures r.Some? ==> Contains(line, "Progress:")
    ensures r.Some? <==> Contains(line, "Progress:") && exists h :: RatioMatch(line, h)
  {
    if Contains(line, "Progress:") && Contains(line, "/") then RatioValues(line)
    else
      assert RatioValues(line).Some? ==> Contains(line, "/") by {
        if RatioValues(line).Some? {
          RatioHasSlash(line);
        }
      }
      None
  }

  /** The posts a "Saved N ... posts" line adds. */
  function SavedOf(line: String): (r: Option<nat>)
    ensures r.Some? <==> Contains(line, "posts") && exists i, a, b :: TriggerMatch(line, SavedPattern, i, a, b)
  {
    SavedNeedsWord(line);
    if Contains(line, "Saved") && Contains(line, "posts") then TriggerValue(line, SavedPattern) else None
  }

  /** A `Saved (\d+)` match implies the code's cheaper test `"Saved" in line`. */
  lemma SavedNeedsWord(line: String)
    ensures TriggerValue(line, SavedPattern).Some? ==> Contains(line, "Saved")
  {
    TriggerNeedsLiteral(line, SavedPattern);
    if TriggerValue(line, SavedPattern).Some? {
      var i :| 0 <= i <= |line| && OccursAt(line, "Saved ", i);
      assert line[i..i + 5] == line[i..i + 6][..5];
      assert OccursAt(line, "Saved", i);
    }
  }

  /** The value of an absolute-count trigger ("Comments:", "Images:", "Videos:"): the code
      first tests that the trigger occurs, then searches for it followed by a number. */
  function AbsoluteOf(line: String, p: TriggerPattern): (r: Option<nat>)
    ensures r.Some? <==> exists i, a, b :: TriggerMatch(line, p, i, a, b)
  {
    TriggerNeedsLiteral(line, p);
    if Contains(line, p.trigger) then TriggerValue(line, p) else None
  }

  /** One output line's effect on the four counters, in the code's order. */
  function Step(m: Metrics, line: String): Metrics {
    // Progress: overwrite posts with the done count. With a total of 0 the division that
    // follows raises and is swallowed, after the assignment.
    var m1 := match ProgressOf(line)
      case Some(pair) => m.(posts := pair.0)
      case None => m;
    // Saved N ... posts: add N.
    var m2 := match SavedOf(line)
      case Some(n) => m1.(posts := m1.posts + n)
      case None => m1;
    // Comments: N overwrites.
    var m3 := match AbsoluteOf(line, CommentsPattern)
      case Some(n) => m2.(comments := n)
      case None => m2;
    // Fetching comments for: adds one, whatever came before.
    var m4 := if Contains(line, "Fetching comments for:") then m3.(comments := m3.comments + 1) else m3;
    var m5 := match AbsoluteOf(line, ImagesPattern)
      case Some(n) => m4.(images := n)
      case None => m4;
    var m6 := match AbsoluteOf(line, VideosPattern)
      case Some(n) => m5.(videos := n)
      case None => m5;
    // Found N posts: status text only, no counter.
    m6
  }

  /** The metrics after consuming `lines` in arrival order. */
  function Fold(m: Metrics, lines: seq<String>): Metrics
    decreases |lines|
  {
    if |lines| == 0 then m else Fold(Step(m, lines[0]), lines[1..])
  }

  // ---------------------------------------------------------------------------------------
  // Each counter is an independent Counter fold.

  function PostsEffect(line: String): Counter.Effect {
    Counter.Effect(match ProgressOf(line) case Some(pair) => Some(pair.0) case None => None,
                   SavedOf(line).GetOr(0))
  }

  function CommentsEffect(line: String): Counter.Effect {
    Counter.Effect(AbsoluteOf(line, CommentsPattern), if Contains(line, "Fetching comments for:") then 1 else 0)
  }

  function ImagesEffect(line: String): Counter.Effect {
    Counter.Effect(AbsoluteOf(line, ImagesPattern), 0)
  }

  function VideosEffect(line: String): Counter.Effect {
    Counter.Effect(AbsoluteOf(line, VideosPattern), 0)
  }

  function Effects(f: String -> Counter.Effect, lines: seq<String>): (es: seq<Counter.Effect>)
    ensures |es| == |lines|
    ensures forall k | 0 <= k < |lines| :: es[k] == f(lines[k])
  {
    seq(|lines|, k requires 0 <= k < |lines| => f(lines[k]))
  }

  /** A line's update is, counter by counter, its effect: the four counters never
      influence each other. */
  lemma StepIsEffects(m: Metrics, line: String)
    ensures Step(m, line) == Metrics(Counter.Apply(PostsEffect(line), m.posts),
                                     Counter.Apply(CommentsEffect(line), m.comments),
                                     Counter.Apply(ImagesEffect(line), m.images),
                                     Counter.Apply(VideosEffect(line), m.videos))
  {
  }

  lemma {:induction false} FoldIsEffects(m: Metrics, lines: seq<String>)
    ensures Fold(m, lines) == Metrics(Counter.Replay(m.posts, Effects(PostsEffect, lines)),
                                      Counter.Replay(m.comments, Effects(CommentsEffect, lines)),
                                      Counter.Replay(m.images, Effects(ImagesEffect, lines)),
                                      Counter.Replay(m.videos, Effects(VideosEffect, lines)))
    decreases |lines|
  {
    if |lines| > 0 {
      StepIsEffects(m, lines[0]);
      FoldIsEffects(Step(m, lines[0]), lines[1..]);
      assert Effects(PostsEffect, lines)[1..] == Effects(PostsEffect, lines[1..]);
      assert Effects(CommentsEffect, lines)[1..] == Effects(CommentsEffect, lines[1..]);
      assert Effects(ImagesEffect, lines)[1..] == Effects(ImagesEffect, lines[1..]);
      assert Effects(VideosEffect, lines)[1..] == Effects(VideosEffect, lines[1..]);
    }
  }

  lemma {:induction false} FoldAppend(m: Metrics, a: seq<String>, b: seq<String>)
    ensures Fold(m, a + b) == Fold(Fold(m, a), b)
    decreases |a|
  {
    if |a| == 0 {
      assert a + b == b;
    } else {
      assert (a + b)[1..] == a[1..] + b;
      FoldAppend(Step(m, a[0]), a[1..], b);
    }
  }

  /** Consuming one more line is one more `Step`: the streaming loop computes the fold. */
  lemma FoldSnoc(m: Metrics, lines: seq<String>, line: String)
    ensures Fold(m, lines + [line]) == Step(Fold(m, lines), line)
  {
    FoldAppend(m, lines, [line]);
  }

  /** The final image and video counts are the values on the last line that reports one,
      or the starting values when no line does. */
  lemma FinalMediaCounts(m: Metrics, lines: seq<String>)
    ensures Fold(m, lines).images == Counter.LastReset(Effects(ImagesEffect, lines)).GetOr(m.images)
    ensures Fold(m, lines).videos == Counter.LastReset(Effects(VideosEffect, lines)).GetOr(m.videos)
  {
    FoldIsEffects(m, lines);
    Counter.OverwritesOnly(m.images, Effects(ImagesEffect, lines));
    Counter.OverwritesOnly(m.videos, Effects(VideosEffect, lines));
  }

  /** The final posts count is the done count of the last progress line (or the starting
      count) plus the "Saved N" amounts from that line on; the final comments count is the
      last "Comments: N" value (or the starting count) plus one per "Fetching comments for:"
      line from that line on. An absolute comments value does not stop later increments. */
  lemma FinalRunningCounts(m: Metrics, lines: seq<String>)
    ensures Fold(m, lines).posts
            == Counter.LastReset(Effects(PostsEffect, lines)).GetOr(m.posts)
               + Counter.AddsSinceReset(Effects(PostsEffect, lines))
    ensures Fold(m, lines).comments
            == Counter.LastReset(Effects(CommentsEffect, lines)).GetOr(m.comments)
               + Counter.AddsSinceReset(Effects(CommentsEffect, lines))
  {
    FoldIsEffects(m, lines);
    Counter.ReplayClosedForm(m.posts, Effects(PostsEffect, lines));
    Counter.ReplayClosedForm(m.comments, Effects(CommentsEffect, lines));
  }

  /** The last line reporting images decides the final image count. */
  lemma LastImagesReport(m: Metrics, lines: seq<String>, k: nat)
    ensures k < |lines| && ImagesEffect(lines[k]).reset.Some?
            && (forall j | k < j < |lines| :: ImagesEffect(lines[j]).reset.None?)
            ==> Fold(m, lines).images == ImagesEffect(lines[k]).reset.value
  {
    if k < |lines| && ImagesEffect(lines[k]).reset.Some?
       && (forall j | k < j < |lines| :: ImagesEffect(lines[j]).reset.None?) {
      FinalMediaCounts(m, lines);
      Counter.LastResetWins(Effects(ImagesEffect, lines), k);
    }
  }

  /** The last line reporting videos decides the final video count. */
  lemma LastVideosReport(m: Metrics, lines: seq<String>, k: nat)
    ensures k < |lines| && VideosEffect(lines[k]).reset.Some?
            && (forall j | k < j < |lines| :: VideosEffect(lines[j]).reset.None?)
            ==> Fold(m, lines).videos == VideosEffect(lines[k]).reset.value
  {
    if k < |lines| && VideosEffect(lines[k]).reset.Some?
       && (forall j | k < j < |lines| :: VideosEffect(lines[j]).reset.None?) {
      FinalMediaCounts(m, lines);
      Counter.LastResetWins(Effects(VideosEffect, lines), k);
    }
  }

  /** Every counter pattern captures a `\d+` group, so a line without a digit changes at
      most the comment-fetching count; a comments trigger with no number is ignored. */
  lemma DigitlessLine(m: Metrics, line: String)
    requires forall k | 0 <= k < |line| :: !IsDigit(line[k])
    requires !Contains(line, "Fetching comments for:")
    ensures Step(m, line) == m
  {
    forall h: RatioHit ensures !RatioMatch(line, h) {
      RatioStartsOnDigit(line, h);
    }
    TriggerNeedsDigit(line, SavedPattern);
    TriggerNeedsDigit(line, CommentsPattern);
    TriggerNeedsDigit(line, ImagesPattern);
    TriggerNeedsDigit(line, VideosPattern);
    assert AbsoluteOf(line, CommentsPattern) == None;
    assert AbsoluteOf(line, ImagesPattern) == None;
    assert AbsoluteOf(line, VideosPattern) == None;
  }

  /** A progress line without a "Saved" match sets the posts count to its done count. */
  lemma ProgressSetsPosts(line: String, done: nat, total: nat)
    requires Contains(line, "Progress:") && Contains(line, "/")
    requires RatioValues(line) == Some((done, total))
    requires TriggerValue(line, SavedPattern) == None
    ensures PostsEffect(line) == Counter.Effect(Some(done), 0)
  {
  }

  /** An absolute trigger matched at the start of a line reports the number it captures. */
  lemma AbsoluteAtStart(line: String, p: TriggerPattern, a: nat, b: nat)
    requires TriggerMatch(line, p, 0, a, b)
    ensures AbsoluteOf(line, p) == Some(DigitsValue(line[a..b]))
  {
    TriggerValueIsLeftmost(line, p, 0, a, b);
    assert OccursAt(line, p.trigger, 0);
  }

  /** A line carrying none of the counter triggers changes nothing; "Found N posts" lines
      are among them. */
  lemma QuietLine(m: Metrics, line: String)
    requires !Contains(line, "Progress:") && !Contains(line, "Saved") && !Contains(line, "Comments:")
    requires !Contains(line, "Fetching comments for:") && !Contains(line, "Images:") && !Contains(line, "Videos:")
    ensures Step(m, line) == m
  {
  }
}

=== FILE: text.dfy ===
/** Strings as sequences of characters, and the few Python string operations the core uses. */
module Text {

  type String = seq<char>

  /** An ASCII decimal digit, the ASCII reading of the regex class `\d`. */
  predicate IsDigit(c: char) {
    '0' <= c <= '9'
  }

  /** ASCII whitespace, the ASCII reading of the regex class `\s`: space, tab, line feed,
      carriage return, vertical tab and form feed. */
  predicate IsSpace(c: char) {
    c == ' ' || c == '\t' || c == '\n' || c == '\r' || c == '\U{000B}' || c == '\U{000C}'
  }

  predicate AllDigits(s: String) {
    forall i | 0 <= i < |s| :: IsDigit(s[i])
  }

  /** `t` occurs in `s` starting at position `i`. */
  predicate OccursAt(s: String, t: String, i: nat) {
    i + |t| <= |s| && s[i..i + |t|] == t
  }

  /** Python's `t in s`. */
  predicate Contains(s: String, t: String) {
    exists i | 0 <= i <= |s| :: OccursAt(s, t, i)
  }

  /** Every character of a contained string occurs in the containing one. */
  lemma ContainsChars(s: String, t: String)
    ensures Contains(s, t) ==> forall j | 0 <= j < |t| :: t[j] in s
  {
    if Contains(s, t) {
      var i :| 0 <= i <= |s| && OccursAt(s, t, i);
      forall j | 0 <= j < |t| ensures t[j] in s {
        assert s[i..i + |t|][j] == s[i + j];
      }
    }
  }

  /** The value of an ASCII digit. */
  function DigitValue(c: char): (d: nat)
    requires IsDigit(c)
    ensures d < 10
  {
    c as int - '0' as int
  }

  /** Python's `int(ds)` for a non-empty run of ASCII digits: the usual base-10 reading. */
  function DigitsValue(ds: String): nat
    requires AllDigits(ds)
  {
    if |ds| == 0 then 0 else DigitsValue(ds[..|ds| - 1]) * 10 + DigitValue(ds[|ds| - 1])
  }

  function DigitChar(d: nat): (c: char)
    requires d < 10
    ensures IsDigit(c) && DigitValue(c) == d
  {
    ('0' as int + d) as char
  }

  /** Python's `str(n)` for a non-negative integer: decimal, no sign, no leading zero. */
  function NatToString(n: nat): (s: String)
    ensures |s| > 0 && AllDigits(s)
    ensures |s| > 1 ==> s[0] != '0'
    ensures DigitsValue(s) == n
  {
    if n < 10 then [DigitChar(n)]
    else
      var prefix := NatToString(n / 10);
      var s := prefix + [DigitChar(n % 10)];
      assert s[..|s| - 1] == prefix;
      s
  }

  /** Python's `s.replace(a, b)` for single characters `a` and `b`. */
  function ReplaceChar(s: String, a: char, b: char): (r: String)
    ensures |r| == |s|
    ensures forall i | 0 <= i < |s| :: r[i] == (if s[i] == a then b else s[i])
  {
    if |s| == 0 then [] else [if s[0] == a then b else s[0]] + ReplaceChar(s[1..], a, b)
  }

  /** Python's `s.replace(pat, '')`: deletes the non-overlapping occurrences of `pat` found
      scanning left to right. An empty `pat` leaves `s` as it is, as in Python. */
  function RemoveAll(s: String, pat: String): (r: String)
    ensures |r| <= |s|
    ensures !Contains(s, pat) ==> r == s
    ensures |pat| > 0 && Contains(s, pat) ==> |r| <= |s| - |pat|
    decreases |s|
  {
    if |pat| == 0 || |s| == 0 then s
    else if OccursAt(s, pat, 0) then RemoveAll(s[|pat|..], pat)
    else
      ContainsStep(s, pat);
      assert s == [s[0]] + s[1..];
      [s[0]] + RemoveAll(s[1..], pat)
  }

  /** A non-empty string contains `t` exactly when `t` starts it or its tail contains `t`. */
  lemma ContainsStep(s: String, t: String)
    requires |s| > 0
    ensures Contains(s, t) <==> OccursAt(s, t, 0) || Contains(s[1..], t)
  {
    if Contains(s, t) && !OccursAt(s, t, 0) {
      var i :| 0 <= i <= |s| && OccursAt(s, t, i);
      assert s[1..][i - 1..i - 1 + |t|] == s[i..i + |t|];
      assert OccursAt(s[1..], t, i - 1);
    }
    if Contains(s[1..], t) {
      var j :| 0 <= j <= |s[1..]| && OccursAt(s[1..], t, j);
      assert s[1..][j..j + |t|] == s[j + 1..j + 1 + |t|];
      assert OccursAt(s, t, j + 1);
    }
  }

  /** Python's `s.split(sep)[0]`: the part of `s` before the first `sep`, all of `s` when
      there is none. */
  function BeforeFirst(s: String, sep: char): (r: String)
    ensures sep !in r
    ensures r <= s
    ensures sep !in s ==> r == s
    ensures |r| < |s| ==> s[|r|] == sep
  {
    if |s| == 0 then []
    else if s[0] == sep then []
    else [s[0]] + BeforeFirst(s[1..], sep)
  }

  /** Python's `''.join(lines)`. */
  function Concat(lines: seq<String>): String {
    if |lines| == 0 then [] else Concat(lines[..|lines| - 1]) + lines[|lines| - 1]
  }

  lemma {:induction false} ConcatAppend(a: seq<String>, b: seq<String>)
    ensures Concat(a + b) == Concat(a) + Concat(b)
    decreases |b|
  {
    if |b| == 0 {
      assert a + b == a;
    } else {
      var b' := b[..|b| - 1];
      assert (a + b)[..|a + b| - 1] == a + b';
      ConcatAppend(a, b');
    }
  }

  /** The first `|p|` characters of `s` are `p`. */
  predicate StartsWith(s: String, p: String) {
    |p| <= |s| && s[..|p|] == p
  }
}

=== FILE: wrappers.dfy ===
/** Option, the model's rendering of Python's `None`-or-value results. */
module Wrappers {

  datatype Option<+T> = None | Some(value: T) {

    /** The wrapped value, or `default` when there is none (Python's `x if x is not None else default`). */
    function GetOr(default: T): T {
      match this
      case Some(v) => v
      case None => default
    }
  }
}
